=== FILE: README.md ===
# dwi_ml tracking heads, transformer bookkeeping and tracking validation, in Dafny

This project models three pieces of dwi_ml, a PyTorch library for tractography.
It covers only their discrete logic: indices, shapes, checks and decisions.

- **Direction getters** (`DirectionGetters`, `direction_getters.dfy`). The
  direction getters are the output heads that turn a model's features into a
  tracking direction. The module covers:
  - the seven-key registry and the compressed-streamline flag of each family;
  - which operations each family supports and which ones raise;
  - the dropout check and the two-layer network sizes;
  - the nearest-sphere-vertex rule (dot-product arg-max, first index on ties)
    and its int16 label cast;
  - the deterministic direction;
  - the Gaussian-mixture reshape of `[N, 3K]` outputs into `[N, K, 3]`.
- **Transformer sequence bookkeeping** (`TransformingTractography`,
  `transforming_tractography.dfy`). The module covers:
  - zero padding and stacking;
  - the padding and future masks;
  - `set_context`;
  - the checks `forward` makes on its inputs and the padding and
    batch-maximum-length decisions;
  - the choice of output rows in the tracking context;
  - the unpad / `vstack` / `split` round trip in the other contexts;
  - the `copy_prev_dir` skip connection;
  - the sizes and checks of the constructor.
- **Tracking validation** (`TrackingValidation`, `tracking_validation.dfy`).
  The module covers:
  - seed truncation;
  - the per-batch score: the mean distance, the line count and the
    invalid-streamline ("IS") ratio over the 25.98 threshold;
  - the point cap `int(200 / step_size)` and the engine settings;
  - the every-`frequency`-epochs schedule with its carry-forward of the
    previous averages;
  - the monitor updates the trainer issues;
  - checkpoint save and resume;
  - the choice of the loss that supervises the best model.

`Errors` (`errors.dfy`) holds the Python exceptions as a datatype and a `Result`
type. `Geometry` (`geometry.dfy`) holds 3-vectors, rows and matrices. Tensors
are sequences of rows of `real`s. Python and torch exceptions become `Err`
values. The neural layers, the propagation engine and the distance function
are function parameters.

## Model

| member | source | states |
|---|---|---|
| DirectionGetters.Lookup | dwi_ml/models/direction_getter_models.py:818-825 | A key is found exactly when it is in the registry, and the family found declares that key; any other key is a KeyError. |
| DirectionGetters.RegistryMatchesKeys | dwi_ml/models/direction_getter_models.py:818-825 | The registry holds exactly seven keys. Every family is registered under its own key, and every key maps to the family declaring it. |
| DirectionGetters.CompressedStreamlineKeys | dwi_ml/models/direction_getter_models.py:818-825 | Over the registry, compressed streamlines are supported exactly by `l2-regression`, `gaussian` and `gaussian-mixture`. These are the flags passed at lines 226, 289, 347, 453, 541, 678 and 790. |
| DirectionGetters.PrepareDropout | dwi_ml/models/direction_getter_models.py:148-154 | A truthy rate outside [0, 1] is a ValueError, and nothing else is. None or 0 gives the identity sub-layer. Any other rate gives a dropout of that rate in (0, 1]. |
| DirectionGetters.HiddenSize | dwi_ml/models/direction_getter_models.py:101 | The hidden width `h = ceil(n / 2)` satisfies `n <= 2h <= n + 1`. |
| DirectionGetters.InitTwoLayerFullyConnected | dwi_ml/models/direction_getter_models.py:96-103 | The network keeps the input and output sizes, and its hidden width is `ceil(input / 2)` as bounds. |
| DirectionGetters.Construct | dwi_ml/models/direction_getter_models.py:536-555 | Construction fails exactly on a bad dropout or for the Fisher-von-Mises mixture (NotImplementedError, line 794). Every network has the ceil(input/2) hidden layer. The output widths are 3 for regression (230, 293), the vertex count for classification (355-357), 3 and 3 for the Gaussian (457-458), K, 3K and 3K for the mixture (550-555), and 3 and 1 for Fisher-von-Mises (681-682). |
| DirectionGetters.SupportOf | dwi_ml/models/direction_getter_models.py:210-815 | For each family, operation and number of mixture components, on a two-dimensional head input: the Fisher-von-Mises mixture raises `NotImplementedError` everywhere (lines 794-815); `forward` fails exactly for the two Gaussian heads (they read `layers_sigma`, lines 468 and 575) and the mixture; the deterministic direction exists exactly for the regression and sphere-classification heads; sampling works exactly for sphere classification and the single Gaussian; the loss works for every other family except a Gaussian mixture of fewer than two components. A mixture of no component raises RuntimeError in loss and sampling (the reshape at line 648). With one component, the logits squeezed at line 647 are normalised across the batch by the softmax at line 595, so the loss is malformed. With one component the sampler's draw depends on chance (IndexError for some draws, never Malformed). The sampler draws one index below N for the whole batch from those logits (lines 618-619). `means[:, mixture_id, :]` (line 624) then gives every row the only component when the draw is 0, which is certain for a single row, and raises IndexError otherwise. With two or more components the sampler draws one index per row and is malformed, since it selects every drawn component for every row (lines 619-625). |
| DirectionGetters.SamplingRaises | dwi_ml/models/direction_getter_models.py:260-262 | Probabilistic sampling raises exactly for the two regression families (`NotImplementedError`, here and at lines 317-319), for Fisher-von-Mises (`IndexError` from `kappas.squeeze(dim=1)` on the one-dimensional kappas of lines 705 and 735), for a Gaussian mixture of no component, and for the unbuildable mixture. For a Gaussian mixture of exactly one component, whether it raises depends on the draw. |
| DirectionGetters.ArgMax | dwi_ml/models/direction_getter_models.py:435 | The result is the first index reaching the maximum, which is torch's tie rule. |
| DirectionGetters.ClosestVertex | dwi_ml/models/direction_getter_models.py:421-435 | The index is a vertex index. Its dot product with the direction is at least every other vertex's, and strictly greater than that of every earlier vertex. |
| DirectionGetters.ClosestVertexScaleInvariant | dwi_ml/models/direction_getter_models.py:421-435 | Multiplying the direction by any positive factor leaves its nearest vertex unchanged. This is why the raw dot product ranks vertices as the documented cosine similarity does. |
| DirectionGetters.ClosestVertexOfVertex | dwi_ml/models/direction_getter_models.py:431-435 | A vertex strictly more similar to itself than to every other vertex is its own class. |
| DirectionGetters.ToInt16 | dwi_ml/models/direction_getter_models.py:435 | The int16 cast lands in [-32768, 32768) and is congruent to its input modulo 65536. |
| DirectionGetters.TargetLabelsAreVertexIndices | dwi_ml/models/direction_getter_models.py:384-387 | On a sphere of at most 32768 vertices, each int16 target label of `compute_loss` equals the nearest vertex's index. |
| DirectionGetters.DetDirectionOf | dwi_ml/models/direction_getter_models.py:415-419 | Regression returns the row unchanged (lines 264-269, 321-326). Classification returns the vertex at the row's first arg-max. The Gaussian, mixture and Fisher families raise NotImplementedError. |
| DirectionGetters.DetDirectionAgreesWithSupport | dwi_ml/models/direction_getter_models.py:507-512 | The deterministic direction succeeds exactly where the support table says it is supported. Where it fails, it raises the table's error (lines 636-638, 752-754). |
| DirectionGetters.ReshapeComponents | dwi_ml/models/direction_getter_models.py:648-649 | The reshape succeeds exactly when K > 0 and the width is 3K. Row n, component c, coordinate d is element 3c + d of row n. |
| DirectionGetters.ReshapeThenFlatten | dwi_ml/models/direction_getter_models.py:648-649 | Flattening the reshaped tensor gives back the original, and the element count is preserved. |
| DirectionGetters.FlattenThenReshape | dwi_ml/models/direction_getter_models.py:648-649 | Reshaping a flattened `[N, K, 3]` tensor gives it back. |
| DirectionGetters.SqueezeColumn | dwi_ml/models/direction_getter_models.py:647 | `squeeze(dim=1)` gives a vector exactly when K = 1, holding each row's single value; otherwise the logits are unchanged. |
| DirectionGetters.GaussianParameters | dwi_ml/models/direction_getter_models.py:640-651 | The parameters are produced exactly when K > 0. The means and sigmas keep their row counts, and flattening them gives back the head's outputs. |
| DirectionGetters.SelectDrawnComponent | dwi_ml/models/direction_getter_models.py:624-625 | Indexing the `[N, K, 3]` means with one scalar component index gives each row's mean of that component when the index is below K. Any other index raises IndexError. |
| DirectionGetters.SingleComponentSampling | dwi_ml/models/direction_getter_models.py:606-625 | For a one-component mixture head, the squeezed logits form one categorical over the N rows, so the drawn index is below N. Selecting the drawn component works exactly when the index is 0, and it otherwise raises the error the support table gives. A batch of one row always samples that row's own mean. |
| DirectionGetters.MixtureLossSupport | dwi_ml/models/direction_getter_models.py:580-652 | For every mixture head, the loss raises exactly when `_get_gaussian_parameters` cannot regroup the parameters, is malformed exactly when the regrouped logits were squeezed to a vector, and works exactly when they keep their `[N, K]` shape. |
| DirectionGetters.HeadShapesFitConsumers | dwi_ml/models/direction_getter_models.py:550-555 | For a constructed head, a classification logits row always yields a vertex, and a mixture head's mean width always reshapes into its K components. |
| TransformingTractography.ForwardPadding | dwi_ml/models/projects/transforming_tractography.py:48-49 | A target length below zero is an error. Otherwise the result has exactly `expected` rows: the line's rows first and zero rows after them. |
| TransformingTractography.ForwardPaddingKeepsWidth | dwi_ml/models/projects/transforming_tractography.py:48-49 | Padding a line of one width keeps that width. |
| TransformingTractography.Stack | dwi_ml/models/projects/transforming_tractography.py:78 | `torch.stack` succeeds exactly on a non-empty list of tensors of one shape (equal lengths and equal row widths), and keeps the lines. |
| TransformingTractography.PadAndStackBatch | dwi_ml/models/projects/transforming_tractography.py:52-78 | With padding, every line has exactly `pad_length` rows: its own rows, then zero rows; the stack then needs the padded lines to share their row width. Without padding, the lines are stacked unchanged, which needs equal lengths and widths. |
| TransformingTractography.PadAndStackBatchOfOneWidth | dwi_ml/models/projects/transforming_tractography.py:52-78 | A non-empty batch whose lines all have the same feature width always pads and stacks to any non-negative length. |
| TransformingTractography.FutureMask | dwi_ml/models/projects/transforming_tractography.py:310-315 | The mask is n by n, and entry [i][j] is true exactly when j > i. |
| TransformingTractography.FutureMaskExample | dwi_ml/models/projects/transforming_tractography.py:349-351 | The three-position mask is the documented table. |
| TransformingTractography.FutureMaskRowVisible | dwi_ml/models/projects/transforming_tractography.py:310-315 | Row i leaves positions 0..i unmasked and masks every later position. |
| TransformingTractography.GeneratePaddingMask | dwi_ml/models/projects/transforming_tractography.py:317-325 | The mask has one row of `batch_max_len` entries per line, and entry [i][j] is true exactly when j >= len_i. |
| TransformingTractography.PaddingMaskMarksPaddedRows | dwi_ml/models/projects/transforming_tractography.py:317-325 | For a non-empty batch of one feature width, a masked position holds a zero row after padding, and an unmasked one holds the line's own row. |
| TransformingTractography.SetContext | dwi_ml/models/projects/transforming_tractography.py:279-281 | Exactly the four context names are accepted, and each one names its context. |
| TransformingTractography.ContextNamesRoundTrip | dwi_ml/models/projects/transforming_tractography.py:279-281 | Every context's name sets that context. |
| TransformingTractography.CheckForward | dwi_ml/models/projects/transforming_tractography.py:402-423 | `forward` proceeds exactly when a context is set, the zipped lengths agree, no length exceeds `max_len` and the batch is non-empty. Each failure raises its own error: ValueError without a context, AssertionError when the zipped lengths differ, ValueError when a line is longer than `max_len`, IndexError on an empty batch. Padding is used exactly when the lengths are not all equal. The batch maximum is the largest length. |
| TransformingTractography.UnpaddedLinesHaveMaxLength | dwi_ml/models/projects/transforming_tractography.py:422-423 | Without padding, every line has the batch maximum length. |
| TransformingTractography.TrackingSelectsLastValidPoint | dwi_ml/models/projects/transforming_tractography.py:471-481 | For every plan `forward` accepts with non-empty lines, both selection branches pick row `len_i - 1` of each line: one row per streamline. |
| TransformingTractography.EmptyLineReadsLastPaddedRow | dwi_ml/models/projects/transforming_tractography.py:476-478 | With padding, an empty line reads index -1, which is the last padded row. |
| TransformingTractography.Split | dwi_ml/models/projects/transforming_tractography.py:496 | `torch.split` succeeds exactly when the sizes add up to the row count. The blocks then have those sizes and stack back to the input. |
| TransformingTractography.SplitVStack | dwi_ml/models/projects/transforming_tractography.py:484-496 | Splitting stacked blocks by their own sizes gives the blocks back. |
| TransformingTractography.AddMatrices | dwi_ml/models/projects/transforming_tractography.py:492-493 | Broadcast addition succeeds exactly when the row counts agree or one side has one row. It keeps the width, and equal row counts add row by row. |
| TransformingTractography.ForwardOutputs | dwi_ml/models/projects/transforming_tractography.py:471-496 | Tracking returns last points. The other contexts return one block per line, with the line lengths as sizes. |
| TransformingTractography.NonTrackingForwardRoundTrip | dwi_ml/models/projects/transforming_tractography.py:483-496 | Outside tracking, without the copy option, line i gets exactly the head applied to its first len_i output rows. |
| TransformingTractography.TrackingForwardLastPoints | dwi_ml/models/projects/transforming_tractography.py:471-491 | In tracking, without the copy option, line i gets the head applied to its output row len_i - 1. |
| TransformingTractography.CopyPrevDir | dwi_ml/models/projects/transforming_tractography.py:526-561 | Regression keys succeed on a non-empty batch. Sphere classification succeeds only through the getter's `torch_sphere` (line 541), and raises AttributeError when the getter has none, as the sphere-classification getter defined in `dwi_ml/models/direction_getter_models.py` does. Every other family raises NotImplementedError. For regression, the copied rows keep the directions' width. |
| TransformingTractography.CopyPrevDirLayout | dwi_ml/models/projects/transforming_tractography.py:554-559 | Each line's block starts after the earlier lines' blocks. Its first row is six times zero, and its row 1 + j is six times direction j. |
| TransformingTractography.CopyPrevRowCount | dwi_ml/models/projects/transforming_tractography.py:554-556 | The copied rows number one more per line than the line's directions. |
| TransformingTractography.NonTrackingCopyPrevRows | dwi_ml/models/projects/transforming_tractography.py:491-496 | Outside tracking, with the copy option, line i gets the copied rows cut back to that line, added row by row to the head's output on its valid rows. |
| TransformingTractography.TrackingAddsCopiedRows | dwi_ml/models/projects/transforming_tractography.py:491-493 | In tracking, a copy holding one row per line is added row by row to the selected outputs. |
| TransformingTractography.TrackingCopyPrevShapeClash | dwi_ml/models/projects/transforming_tractography.py:491-493 | In tracking, a copy whose row count differs from the number of lines, and is not one, makes `forward` raise. |
| TransformingTractography.TwoLinesOfThreePointsClash | dwi_ml/models/projects/transforming_tractography.py:444-493 | Two lines of three points, with 3-D directions and an L2-regression head of output width 3, pass the input checks of `forward`. Their copy has six rows, and tracking with it raises. |
| TransformingTractography.LastCopiedRowIsStackedRow | dwi_ml/models/projects/transforming_tractography.py:554-556 | The copied row kept for line i is the stacked row at that line's last point, just after the rows of the lines before it. |
| TransformingTractography.ForwardOutputsCorrected | dwi_ml/models/projects/transforming_tractography.py:491-496 | The corrected tail of `forward` is identical outside tracking and identical without the copy option. |
| TransformingTractography.CorrectedTrackingRows | dwi_ml/models/projects/transforming_tractography.py:471-493 | With the correction, tracking succeeds on every accepted batch. Line i gets its last output's head value plus the copied row at its last point. |
| TransformingTractography.CorrectedTrackingMatchesLastRow | dwi_ml/models/projects/transforming_tractography.py:471-496 | With the correction, each tracked row equals the last row of the block the training context returns for that line. |
| TransformingTractography.VariantSizes | dwi_ml/models/projects/transforming_tractography.py:707-709 | The original transformer uses `d_model` for all three sizes (line 608). The source-and-target one sets `d_model = ex + et`. |
| TransformingTractography.ConstructTransformer | dwi_ml/models/projects/transforming_tractography.py:190-252 | Construction succeeds exactly when the input embedding is larger than 3, the three keys are known, `nheads` divides `d_model` (zero heads divide by zero), the dropout rate lies in [0, 1] (otherwise torch's `Dropout` raises ValueError, line 218), and the direction-getter key is registered (otherwise KeyError) with a head that builds on `d_model` inputs (line 250). The built head has the requested key and reads `d_model` features. The feed-forward width defaults to `d_model // 2`. The input size is `features * (neighbours + 1)`. There are 4 target features for `as_label`, and otherwise the sphere's vertex count plus 1. |
| TransformingTractography.BuildDirectionGetter | dwi_ml/models/projects/transforming_tractography.py:250 | The head is built exactly when its key is registered and the family's constructor succeeds; an unknown key is a KeyError; the built head has the requested key, the dropout its arguments ask for, and networks that read the given input size. |
| TransformingTractography.NoTransformerOnFisherMixture | dwi_ml/models/projects/transforming_tractography.py:250 | No transformer can be built on the `fisher-von-mises-mixture` head, whatever the other arguments. |
| TrackingValidation.PrefixSlice | dwi_ml/training/projects/trainers_for_generation.py:211 | A Python `[0:stop]` slice is a prefix, of length min(stop, len) for stop >= 0 and counted from the end for a negative stop. |
| TrackingValidation.Seed | dwi_ml/training/projects/trainers_for_generation.py:211-212 | A seed is a prefix of its line with min(len, nb_steps_init) points. |
| TrackingValidation.SeedLength | dwi_ml/training/projects/trainers_for_generation.py:211-212 | A seed has at most nb_steps_init points, and a line no longer than that is kept whole. |
| TrackingValidation.Seeds | dwi_ml/training/projects/trainers_for_generation.py:211-212 | Each line of the batch is cut to its seed, in order. |
| TrackingValidation.CountAbove | dwi_ml/training/projects/trainers_for_generation.py:231 | The count is 0 exactly when every distance is at most the threshold, and it is the line count exactly when every distance exceeds it. |
| TrackingValidation.CountAboveCountsIndices | dwi_ml/training/projects/trainers_for_generation.py:231 | The count is the number of distances strictly above the threshold, so a distance equal to 25.98 is not counted. |
| TrackingValidation.IsRatio | dwi_ml/training/projects/trainers_for_generation.py:231 | The ratio times the line count is 100 times the count. |
| TrackingValidation.IsRatioIsPercentage | dwi_ml/training/projects/trainers_for_generation.py:229-231 | The ratio lies in [0, 100]. It is 0 exactly when no line is invalid, and 100 exactly when all are. |
| TrackingValidation.Mean | dwi_ml/training/projects/trainers_for_generation.py:235 | The mean times the count is the sum. |
| TrackingValidation.MeanBelow | dwi_ml/training/projects/trainers_for_generation.py:235 | The mean of distances bounded by a value is bounded by it. |
| TrackingValidation.Truncate | dwi_ml/training/projects/trainers_for_generation.py:259 | `int()` truncates toward zero. |
| TrackingValidation.MaxPoints | dwi_ml/training/projects/trainers_for_generation.py:259 | A zero step size divides by zero. For a positive step, the cap is the largest n with `n * step <= 200`. |
| TrackingValidation.PropagationSettings | dwi_ml/training/projects/trainers_for_generation.py:237-265 | A missing step size is an AssertionError. Otherwise the settings are a 360-degree theta, the step size, the point cap (cap * step <= 200), no opposite-direction check, no appended last point and normalised directions. |
| TrackingValidation.PropagateMultipleLines | dwi_ml/training/projects/trainers_for_generation.py:258-265 | Propagation succeeds exactly when the settings are valid, and it is the engine applied to those settings and the seeds. |
| TrackingValidation.LastPoints | dwi_ml/training/projects/trainers_for_generation.py:206 | The last points are taken exactly when the batch is non-empty and no line is empty; an empty line is an IndexError. |
| TrackingValidation.PairwiseDistances | dwi_ml/training/projects/trainers_for_generation.py:222-223 | Distances are computed exactly when the row counts agree or broadcast. Equal counts compare row i with row i. |
| TrackingValidation.GenerateFromOneBatch | dwi_ml/training/projects/trainers_for_generation.py:197-235 | An empty batch or an empty line fails, and so does a missing step size. A success reports the tracked line count. |
| TrackingValidation.BatchScoreOfTrackedLines | dwi_ml/training/projects/trainers_for_generation.py:206-235 | When the engine returns one non-empty line per seed, the score is the mean distance from each tracked last point to the true last point of the full line, the line count, and the IS ratio of those distances, which lies in [0, 100]. |
| TrackingValidation.BatchesHandled | dwi_ml/training/projects/trainers_for_generation.py:157-163 | The loop stops at batch `nb_valid_batches` when it is in range, and otherwise handles every batch. |
| TrackingValidation.ScoreBatches | dwi_ml/training/projects/trainers_for_generation.py:157-171 | Scoring succeeds exactly when every batch does. Batch b gives one loss update and one ratio update, each weighted by its line count. |
| TrackingValidation.ValidateUsingTracking | dwi_ml/training/projects/trainers_for_generation.py:135-171 | The phase issues one update per handled batch to each monitor. |
| TrackingValidation.LastOf | dwi_ml/training/projects/trainers_for_generation.py:112 | `xs[-1]` is the last element, and an empty list is an IndexError. |
| TrackingValidation.ValidateOneEpoch | dwi_ml/training/projects/trainers_for_generation.py:101-117 | Epochs with `(epoch + 1) % frequency == 0` run the tracking phase. Other epochs give each monitor its previous average as its only update, which needs a non-empty history. A zero frequency divides by zero. |
| TrackingValidation.FrequencyOneAlwaysTracks | dwi_ml/training/projects/trainers_for_generation.py:107 | With frequency 1, every epoch runs the tracking phase. |
| TrackingValidation.FirstEpochNeedsHistory | dwi_ml/training/projects/trainers_for_generation.py:107-114 | With fresh monitors and a frequency other than ±1, epoch 0 reads an empty history and raises IndexError. |
| TrackingValidation.TrackingOncePerPeriod | dwi_ml/training/projects/trainers_for_generation.py:107 | Over m full periods of `frequency` epochs, the tracking phase runs exactly m times. |
| TrackingValidation.PrepareCheckpointInfo | dwi_ml/training/projects/trainers_for_generation.py:82-90 | The saved states gain both monitors' states under their keys, and every other entry is kept. |
| TrackingValidation.ResumedRatioMonitor | dwi_ml/training/projects/trainers_for_generation.py:76-77 | The resumed IS history is 150 zeros at epoch 149. |
| TrackingValidation.UpdateStatesFromCheckpoint | dwi_ml/training/projects/trainers_for_generation.py:70-80 | The loss monitor is restored from its key, and a missing key is a KeyError. The IS monitor is reset to 150 zeros at epoch 149, whatever the checkpoint holds. |
| TrackingValidation.ResumeRestoresLossOnly | dwi_ml/training/projects/trainers_for_generation.py:70-90 | Save then resume gives back the loss monitor exactly. Checkpoints that differ only in the IS state resume identically. |
| TrackingValidation.ResumedRatioHistoryReadable | dwi_ml/training/projects/trainers_for_generation.py:76-77 | After a resume, the IS history's last average reads 0. |
| TrackingValidation.LatestLossToSuperviseBest | dwi_ml/training/projects/trainers_for_generation.py:124-133 | The best model is supervised by the last tracking-validation loss average when validation is used, and by the last training-loss average otherwise. An empty history is an IndexError. |

## Left out

- Floating point: tensors hold Dafny `real`s, so rounding, NaN and infinities are not modelled.
- The distribution mathematics is not modelled. This covers Gaussian and von Mises-Fisher log-likelihoods, softmax and logsumexp in the losses, the `sigmoid * 20` kappa bound, categorical and normal draws, and the Fisher-von-Mises rejection sampler. These are numerical and random, with no discrete contract.
- Neural layers are left out: `loop_on_layers`, the transformer encoder and decoder, embeddings and positional encodings. The transformer's layer outputs are an input (`outputs`), and the head is a row function (`head`).
- The Gaussian heads' `forward` reads the misspelled attribute `layers_sigma`. It is modelled only as raising AttributeError in the support table.
- The mixture sampling index `means[:, mixture_id, :]` is only marked malformed in the support table. Its sampling is not modelled.
- DirectionGetters.SupportOf: the table is for the documented two-dimensional head input `[N, nb_features]`. With a three-dimensional single-step input `[N, 1, nb_features]`, the Fisher-von-Mises squeeze at line 735 would succeed; that input shape is not modelled.
- DirectionGetters.DetDirectionOf: classification is modelled for a single row. The source's arg-max over a whole flattened batch is not modelled.
- DirectionGetters.ClosestVertexOfVertex: states the separation a sphere of distinct unit vertices gives as a precondition. Cauchy-Schwarz, which would derive it from unit length, is not proved.
- DirectionGetters.ReshapeComponents: covers only widths that are exactly 3K. torch's `reshape((-1, K, 3))` also accepts other shapes whose element count divides evenly, which no head produces.
- DirectionGetters.SqueezeColumn: only the mixture-logits squeeze is modelled. The Fisher heads' kappa squeeze is numerical plumbing.
- TransformingTractography.ForwardPadding: fails only when the target length is negative. A negative pad amount crops rows, as torch's `pad` does. The exact torch message is not modelled.
- TransformingTractography.ConstructTransformer: checks divisibility with an exact integer remainder. The source compares `d_model // nheads` with the float `d_model / nheads`, which differs only beyond float precision. The registries `keys_to_embeddings` and `keys_to_positional_encodings`, and the sphere `get_sphere` reads, are parameters, because those modules are not part of this model. The method `instantiate_direction_getter` (line 250) is not part of this model; it is taken to look the key up in `keys_to_direction_getters` and build the head on `d_model` input features with `dg_args`. A negative `d_model` is modelled as torch's negative-dimension RuntimeError. Failures inside the embedding and positional-encoding constructors and the `assert self.loss_uses_streamlines` of line 252 are not modelled.
- TransformingTractography.AddMatrices: the broadcast of a one-row side is modelled, but its row contents are not stated beyond the width.
- TransformingTractography.CheckForward: the `forward` docstring says a streamline has one more point than its inputs, but the code asserts equal lengths over `zip`. The model follows the code.
- TransformingTractography.CopyPrevDir: the one-hot conversion `convert_dirs_to_class` through `torch_sphere` is a parameter (`torchSphere`), absent for the sphere-classification getter as defined. `compute_directions` is outside the model, so each line's directions are an input.
- TransformingTractography.ForwardOutputs: the head is a function from one output row to one row, which is what the single-tensor heads (cosine and L2 regression, sphere classification) compute. The Gaussian heads' `forward` raises before returning, and the Fisher-von-Mises head returns a `(means, kappas)` pair, on which the `torch.split` of line 496 and the copy-previous-direction addition are not defined. Those heads are not modelled here.
- TransformingTractography.Stack: a line with no rows carries no width in the model, so two empty lines of different feature counts stack here while torch would reject them. Padding uses one width for every line, where torch pads each tensor with its own width.
- TrackingValidation.PropagationSettings: the source passes theta as `2 * pi` radians; it is recorded as 360 degrees. The tracking mask is not modelled.
- The weighted average inside `BatchHistoryMonitor` is not shown, so it is not modelled; the model states only the updates the trainer issues (value and weight). Monitor `start_new_epoch` / `end_epoch`, the time monitor, comet logging, tqdm, the `mean_length` logging and device moves are left out.
- The propagation engine, the batch loader and the model call inside `get_dirs_at_last_pos` are not part of this model. The engine is a function parameter. One engine function serves every batch, and the batch's subject ids (`ids_per_subj`, lines 203 and 246-247 of `dwi_ml/training/projects/trainers_for_generation.py`) are not modelled. So two batches with the same seeds track alike, whatever their subjects' inputs.
- Checkpoint files on disk, HDF5 containers, tracking-mask loading, the ConvNeXt autoencoder, command-line scripts and visualisation are left out.

## Findings

| source | as written | input that shows it | evidently intended | confidence | as-written member | corrected member |
|---|---|---|---|---|---|---|
| dwi_ml/models/projects/transforming_tractography.py:491-493 | In the tracking context, `copy_prev_dir + outputs` adds the stacked copied directions to the selected outputs. The copy has one row per point of every line, and the selection has one row per line, so the shapes clash and torch raises. The exceptions are a batch of one line, whose single output row is broadcast over all of that line's copied rows, and a batch whose lines all have a single point. | Two lines of three points, an `l2-regression` head and `start_from_copy_prev` on: the copy has 6 rows and the selection has 2. | While tracking, add to each line's output the copied direction at that line's last valid position, which is what the training context adds to that row. | not executed | TransformingTractography.TwoLinesOfThreePointsClash | TransformingTractography.CorrectedTrackingMatchesLastRow |

=== FILE: direction_getters.dfy ===
/**
  The discrete rules of the direction-getter output heads: the family
  registry, which operations each family supports, the dropout check, the
  layer sizes, the nearest-sphere-vertex rule, the deterministic direction and
  the reshape of the Gaussian-mixture parameters. The layers themselves and
  the distribution mathematics are not modelled.
*/
module DirectionGetters {
  import opened Errors
  import opened Geometry

  // The messages of the errors raised below.
  const DropoutRateMessage := "Dropout rate should be between 0 and 1."
  const EmptyArgMaxMessage := "argmax of an empty tensor"
  const ReshapeMessage := "shape is invalid for input size"

  // ---------------------------------------------------------------- registry

  /** The seven distribution families a model can be built with. */
  datatype Family =
    | CosineRegression
    | L2Regression
    | SphereClassification
    | Gaussian
    | GaussianMixture
    | FisherVonMises
    | FisherVonMisesMixture

  /** The key each family declares for itself when constructed. */
  function Key(f: Family): string
  {
    match f
    case CosineRegression => "cosine-regression"
    case L2Regression => "l2-regression"
    case SphereClassification => "sphere-classification"
    case Gaussian => "gaussian"
    case GaussianMixture => "gaussian-mixture"
    case FisherVonMises => "fisher-von-mises"
    case FisherVonMisesMixture => "fisher-von-mises-mixture"
  }

  /** The string-keyed table used to rebuild a head from its key. */
  const Registry: map<string, Family> := map[
    "cosine-regression" := CosineRegression,
    "l2-regression" := L2Regression,
    "sphere-classification" := SphereClassification,
    "gaussian" := Gaussian,
    "gaussian-mixture" := GaussianMixture,
    "fisher-von-mises" := FisherVonMises,
    "fisher-von-mises-mixture" := FisherVonMisesMixture
  ]

  /** Looking a key up in the registry; an unknown key is a KeyError. */
  function Lookup(key: string): (r: Result<Family>)
    ensures r.Ok? <==> key in Registry
    ensures r.Ok? ==> Key(r.value) == key
    ensures r.Err? ==> r.error == KeyError(key)
  {
    if key in Registry then Ok(Registry[key]) else Err(KeyError(key))
  }

  /** The registry holds exactly seven keys, and each one is the key its family declares. */
  lemma RegistryMatchesKeys()
    ensures |Registry| == 7
    ensures forall f: Family :: Key(f) in Registry && Registry[Key(f)] == f
    ensures forall k :: k in Registry ==> Key(Registry[k]) == k
  {
    forall f: Family
      ensures Key(f) in Registry && Registry[Key(f)] == f
    {
      KeyRegistered(f);
    }
    RegistryKeys();
    var keys := {Key(CosineRegression), Key(L2Regression), Key(SphereClassification), Key(Gaussian),
                 Key(GaussianMixture), Key(FisherVonMises), Key(FisherVonMisesMixture)};
    assert |keys| == 7;
  }

  /** The registry's keys are the seven families' own keys. */
  lemma RegistryKeys()
    ensures Registry.Keys == {Key(CosineRegression), Key(L2Regression), Key(SphereClassification), Key(Gaussian),
                              Key(GaussianMixture), Key(FisherVonMises), Key(FisherVonMisesMixture)}
  {
  }

  lemma KeyRegistered(f: Family)
    ensures Key(f) in Registry && Registry[Key(f)] == f
  {
    match f
    case CosineRegression =>
    case L2Regression =>
    case SphereClassification =>
    case Gaussian =>
    case GaussianMixture =>
    case FisherVonMises =>
    case FisherVonMisesMixture =>
  }

  /** The capability flag each family passes to its base constructor. */
  predicate SupportsCompressedStreamlines(f: Family)
  {
    match f
    case CosineRegression => false
    case L2Regression => true
    case SphereClassification => false
    case Gaussian => true
    case GaussianMixture => true
    case FisherVonMises => false
    case FisherVonMisesMixture => false
  }

  /** Only the L2-regression, Gaussian and Gaussian-mixture keys support compressed streamlines. */
  lemma CompressedStreamlineKeys()
    ensures forall k :: k in Registry ==>
      (SupportsCompressedStreamlines(Registry[k]) <==>
        k == "l2-regression" || k == "gaussian" || k == "gaussian-mixture")
  {
    RegistryMatchesKeys();
  }

  // ----------------------------------------------------------------- dropout

  /** The dropout sub-layer: the identity, or a dropout of the given rate. */
  datatype DropoutLayer = Identity | DropoutRate(rate: real)

  /**
    The base constructor's dropout check: a truthy rate outside [0, 1] raises
    ValueError; a falsy one (None or 0) makes the sub-layer the identity.
  */
  function PrepareDropout(dropout: Option<real>): (r: Result<DropoutLayer>)
    ensures r.Err? <==> dropout.Some? && (dropout.value < 0.0 || dropout.value > 1.0)
    ensures r.Err? ==> r.error.ValueError?
    ensures r.Ok? && r.value.Identity? <==> dropout == None || dropout == Some(0.0)
    ensures r.Ok? && r.value.DropoutRate? ==>
      dropout == Some(r.value.rate) && 0.0 < r.value.rate <= 1.0
  {
    match dropout
    case None => Ok(Identity)
    case Some(p) =>
      if p == 0.0 then Ok(Identity)
      else if p < 0.0 || p > 1.0 then Err(ValueError(DropoutRateMessage))
      else Ok(DropoutRate(p))
  }

  // ------------------------------------------------------------ layer sizes

  /** A two-layer fully connected network: input -> hidden -> output. */
  datatype TwoLayerNet = TwoLayerNet(inputSize: nat, hiddenSize: nat, outputSize: nat)

  /** The hidden width is ceil(input / 2). */
  function HiddenSize(inputSize: nat): (h: nat)
    ensures 2 * h >= inputSize
    ensures 2 * h <= inputSize + 1
  {
    (inputSize + 1) / 2
  }

  function InitTwoLayerFullyConnected(inputSize: nat, outputSize: nat): (n: TwoLayerNet)
    ensures n.inputSize == inputSize && n.outputSize == outputSize
    ensures 2 * n.hiddenSize >= inputSize && 2 * n.hiddenSize <= inputSize + 1
  {
    TwoLayerNet(inputSize, HiddenSize(inputSize), outputSize)
  }

  /** The constructor arguments of every family (each family reads the ones it needs). */
  datatype HeadArgs = HeadArgs(
    inputSize: nat,
    dropout: Option<real>,
    sphere: seq<Vec3>,     // vertices of the classification sphere
    nbGaussians: nat,      // Gaussian mixture
    nbClusters: nat)       // Fisher-von-Mises mixture

  /** A constructed head: its family, dropout sub-layer, sphere, and one network per output tensor. */
  datatype Head = Head(
    family: Family,
    dropout: DropoutLayer,
    vertices: seq<Vec3>,
    nbGaussians: nat,
    networks: seq<TwoLayerNet>)

  function OutputSizes(nets: seq<TwoLayerNet>): (s: seq<nat>)
    ensures |s| == |nets|
    ensures forall i :: 0 <= i < |nets| ==> s[i] == nets[i].outputSize
  {
    seq(|nets|, i requires 0 <= i < |nets| => nets[i].outputSize)
  }

  function Nets(inputSize: nat, widths: seq<nat>): seq<TwoLayerNet>
  {
    seq(|widths|, i requires 0 <= i < |widths| => InitTwoLayerFullyConnected(inputSize, widths[i]))
  }

  /**
    Constructing a head of family `f`. The dropout check runs first (in the
    base constructor); the Fisher-von-Mises mixture then always raises
    NotImplementedError. Every network reads the input size and has a hidden
    layer of ceil(input / 2); the output widths are the family's.
  */
  function Construct(f: Family, args: HeadArgs): (r: Result<Head>)
    ensures r.Err? <==> PrepareDropout(args.dropout).Err? || f == FisherVonMisesMixture
    ensures f == FisherVonMisesMixture && PrepareDropout(args.dropout).Ok? ==>
      r.Err? && r.error.NotImplementedError?
    ensures r.Ok? ==> r.value.family == f && r.value.dropout == PrepareDropout(args.dropout).value
    ensures r.Ok? ==> forall i :: 0 <= i < |r.value.networks| ==>
      r.value.networks[i].inputSize == args.inputSize &&
      2 * r.value.networks[i].hiddenSize >= args.inputSize &&
      2 * r.value.networks[i].hiddenSize <= args.inputSize + 1
    ensures r.Ok? && (f == CosineRegression || f == L2Regression) ==>
      OutputSizes(r.value.networks) == [3]
    ensures r.Ok? && f == SphereClassification ==>
      OutputSizes(r.value.networks) == [|args.sphere|] && r.value.vertices == args.sphere
    ensures r.Ok? && f == Gaussian ==> OutputSizes(r.value.networks) == [3, 3]
    ensures r.Ok? && f == GaussianMixture ==>
      OutputSizes(r.value.networks) == [args.nbGaussians, 3 * args.nbGaussians, 3 * args.nbGaussians]
      && r.value.nbGaussians == args.nbGaussians
    ensures r.Ok? && f == FisherVonMises ==> OutputSizes(r.value.networks) == [3, 1]
  {
    var drop :- PrepareDropout(args.dropout);
    var n := args.inputSize;
    match f
    case CosineRegression => Ok(Head(f, drop, [], 0, Nets(n, [3])))
    case L2Regression => Ok(Head(f, drop, [], 0, Nets(n, [3])))
    case SphereClassification => Ok(Head(f, drop, args.sphere, 0, Nets(n, [|args.sphere|])))
    case Gaussian => Ok(Head(f, drop, [], 0, Nets(n, [3, 3])))
    case GaussianMixture =>
      var k := args.nbGaussians;
      Ok(Head(f, drop, [], k, Nets(n, [k, 3 * k, 3 * k])))
    case FisherVonMises => Ok(Head(f, drop, [], 0, Nets(n, [3, 1])))
    case FisherVonMisesMixture => Err(NotImplementedError(""))
  }

  // ------------------------------------------------------ operation support

  datatype Operation = Forward | ComputeLoss | SampleProb | DetDirection

  /**
    What calling an operation on a family does: it works, it raises, it
    runs but produces a tensor of the wrong shape, or whether it raises
    depends on a random draw.
  */
  datatype Support = Supported | Raises(error: Error) | Malformed(reason: string) | DrawDependent(error: Error, reason: string)

  /** The message of the regression heads' sampling error. */
  const RegressionSamplingMessage := "This regression model does not support probabilistic tractography."

  /** The attribute the Gaussian heads' `forward` reads; the layers are stored as `layers_sigmas`. */
  const MisspelledSigmaLayers := "layers_sigma"

  /** Why the Gaussian-mixture sampler's output is malformed. */
  const MixtureIndexDefect := "means[:, mixture_id, :] selects every sampled component for every row"

  /** When the single-component mixture sampler raises. */
  const SingleComponentDrawMessage := "one component index is drawn for the whole batch and only index 0 exists"

  /** Why the Gaussian-mixture loss of a single component is malformed. */
  const SingleComponentDefect := "the squeezed logits are normalised across the batch instead of across the components"

  /**
    The operations of each family on the documented two-dimensional head
    input `[N, nb_features]`; `k` is the number of mixture components, read
    only by the Gaussian mixture. The Gaussian heads' `forward` reads
    `layers_sigma`, but the attribute is `layers_sigmas`. The mixture's loss
    and sampler first regroup the parameters per component, which fails for
    no component; with one component, `squeeze(dim=1)` leaves the logits a
    vector, so the softmax of the loss runs over the batch, and the sampler
    draws one index below N for the whole batch, which selects the only
    component when it is 0 and raises IndexError otherwise. With more
    components the sampler draws one index per row but selects every drawn
    component for every row. The
    Fisher-von-Mises `forward` squeezes its kappas to one dimension, so the
    sampler's `kappas.squeeze(dim=1)` is out of range.
  */
  function SupportOf(f: Family, op: Operation, k: nat): (s: Support)
    ensures f == FisherVonMisesMixture ==> s.Raises? && s.error.NotImplementedError?
    ensures op == ComputeLoss ==> (s.Supported? <==> f != FisherVonMisesMixture && !(f == GaussianMixture && k < 2))
    ensures op == Forward ==> (s.Supported? <==> !(f.Gaussian? || f.GaussianMixture? || f.FisherVonMisesMixture?))
    ensures op == DetDirection ==> (s.Supported? <==> f.CosineRegression? || f.L2Regression? || f.SphereClassification?)
    ensures op == SampleProb ==> (s.Supported? <==> f.SphereClassification? || f.Gaussian?)
    ensures f == GaussianMixture && k == 0 && (op == ComputeLoss || op == SampleProb) ==>
      s.Raises? && s.error.RuntimeError?
    ensures s.Malformed? <==> f == GaussianMixture && ((op == SampleProb && k >= 2) || (op == ComputeLoss && k == 1))
    ensures s.DrawDependent? <==> f == GaussianMixture && op == SampleProb && k == 1
    ensures s.DrawDependent? ==> s.error == IndexError
  {
    match f
    case CosineRegression | L2Regression =>
      if op == SampleProb
      then Raises(NotImplementedError(RegressionSamplingMessage))
      else Supported
    case SphereClassification => Supported
    case Gaussian =>
      if op == Forward then Raises(AttributeError(MisspelledSigmaLayers))
      else if op == DetDirection then Raises(NotImplementedError(""))
      else Supported
    case GaussianMixture =>
      (match op
       case Forward => Raises(AttributeError(MisspelledSigmaLayers))
       case DetDirection => Raises(NotImplementedError(""))
       case SampleProb =>
         if k == 0 then Raises(RuntimeError(ReshapeMessage))
         else if k == 1 then DrawDependent(IndexError, SingleComponentDrawMessage)
         else Malformed(MixtureIndexDefect)
       case ComputeLoss =>
         if k == 0 then Raises(RuntimeError(ReshapeMessage))
         else if k == 1 then Malformed(SingleComponentDefect)
         else Supported)
    case FisherVonMises =>
      if op == DetDirection then Raises(NotImplementedError(""))
      else if op == SampleProb then Raises(IndexError)
      else Supported
    case FisherVonMisesMixture => Raises(NotImplementedError(""))
  }

  /**
    Probabilistic sampling raises for the two regression families (by design),
    for Fisher-von-Mises (the squeeze of its one-dimensional kappas), for a
    mixture of no component and for the unbuildable Fisher-von-Mises mixture;
    for a mixture of one component it raises IndexError for some draws.
  */
  lemma SamplingRaises(f: Family, k: nat)
    ensures SupportOf(f, SampleProb, k).Raises? <==>
      f == CosineRegression || f == L2Regression || f == FisherVonMises || f == FisherVonMisesMixture ||
      (f == GaussianMixture && k == 0)
    ensures f == CosineRegression || f == L2Regression ==>
      SupportOf(f, SampleProb, k).error.NotImplementedError?
    ensures f == FisherVonMises ==> SupportOf(f, SampleProb, k) == Raises(IndexError)
    ensures SupportOf(f, SampleProb, k).DrawDependent? <==> f == GaussianMixture && k == 1
  {
  }

  // --------------------------------------------------------------- arg-max

  /** `k` is the first index at which `xs` reaches its maximum (torch's argmax tie rule). */
  ghost predicate IsFirstArgMax(xs: seq<real>, k: int)
  {
    && 0 <= k < |xs|
    && (forall j :: 0 <= j < |xs| ==> xs[j] <= xs[k])
    && (forall j :: 0 <= j < k ==> xs[j] < xs[k])
  }

  lemma FirstArgMaxUnique(xs: seq<real>, k1: int, k2: int)
    requires IsFirstArgMax(xs, k1) && IsFirstArgMax(xs, k2)
    ensures k1 == k2
  {
    assert xs[k1] <= xs[k2] && xs[k2] <= xs[k1];
  }

  function ArgMax(xs: seq<real>): (k: nat)
    requires |xs| > 0
    ensures IsFirstArgMax(xs, k)
  {
    if |xs| == 1 then 0
    else
      var k := ArgMax(xs[..|xs| - 1]);
      if xs[|xs| - 1] > xs[k] then |xs| - 1 else k
  }

  // ------------------------------------------------- nearest sphere vertex

  /** The dot product of `d` with every vertex: one row of `directions @ vertices.T`. */
  function Similarities(vertices: seq<Vec3>, d: Vec3): (s: seq<real>)
    ensures |s| == |vertices|
    ensures forall i :: 0 <= i < |vertices| ==> s[i] == Dot(d, vertices[i])
  {
    seq(|vertices|, i requires 0 <= i < |vertices| => Dot(d, vertices[i]))
  }

  /**
    The class of a target direction: the vertex with the largest dot product,
    ties going to the first such vertex.
  */
  function ClosestVertex(vertices: seq<Vec3>, d: Vec3): (k: nat)
    requires |vertices| > 0
    ensures k < |vertices|
    ensures forall j :: 0 <= j < |vertices| ==> Dot(d, vertices[j]) <= Dot(d, vertices[k])
    ensures forall j :: 0 <= j < k ==> Dot(d, vertices[j]) < Dot(d, vertices[k])
  {
    var s := Similarities(vertices, d);
    var k := ArgMax(s);
    assert s[k] == Dot(d, vertices[k]);
    k
  }

  /** A positive factor keeps the order of two reals, both ways. */
  lemma MulPositiveOrder(c: real, a: real, b: real)
    requires c > 0.0
    ensures c * a <= c * b <==> a <= b
    ensures c * a < c * b <==> a < b
  {
    assert c * a - c * b == c * (a - b);
    if a < b {
      assert c * (b - a) > 0.0;
    } else if a > b {
      assert c * (a - b) > 0.0;
    }
  }

  /** Two sequences whose entries compare alike have the same first arg-max. */
  lemma ArgMaxOrderInvariant(xs: seq<real>, ys: seq<real>)
    requires |xs| == |ys| > 0
    requires forall i, j :: 0 <= i < |xs| && 0 <= j < |xs| ==>
      (xs[i] <= xs[j] <==> ys[i] <= ys[j]) && (xs[i] < xs[j] <==> ys[i] < ys[j])
    ensures ArgMax(ys) == ArgMax(xs)
  {
    var k := ArgMax(ys);
    assert IsFirstArgMax(xs, k);
    FirstArgMaxUnique(xs, k, ArgMax(xs));
  }

  /** Scaling every entry by the same positive factor keeps every comparison between entries. */
  lemma ScalingKeepsOrder(xs: seq<real>, ys: seq<real>, c: real)
    requires |xs| == |ys|
    requires c > 0.0
    requires forall j :: 0 <= j < |xs| ==> ys[j] == c * xs[j]
    ensures forall i, j :: 0 <= i < |xs| && 0 <= j < |xs| ==>
      (xs[i] <= xs[j] <==> ys[i] <= ys[j]) && (xs[i] < xs[j] <==> ys[i] < ys[j])
  {
    forall i, j | 0 <= i < |xs| && 0 <= j < |xs|
      ensures (xs[i] <= xs[j] <==> ys[i] <= ys[j]) && (xs[i] < xs[j] <==> ys[i] < ys[j])
    {
      MulPositiveOrder(c, xs[i], xs[j]);
    }
  }

  lemma SimilaritiesScale(vertices: seq<Vec3>, d: Vec3, c: real)
    ensures forall j :: 0 <= j < |vertices| ==>
      Similarities(vertices, Scale(c, d))[j] == c * Similarities(vertices, d)[j]
  {
    forall j | 0 <= j < |vertices|
      ensures Similarities(vertices, Scale(c, d))[j] == c * Similarities(vertices, d)[j]
    {
      DotScale(c, d, vertices[j]);
    }
  }

  /**
    Scaling a target by a positive factor never changes its class, which is
    why the raw dot-product arg-max is the cosine ordering the head documents.
  */
  lemma ClosestVertexScaleInvariant(vertices: seq<Vec3>, d: Vec3, c: real)
    requires |vertices| > 0
    requires c > 0.0
    ensures ClosestVertex(vertices, Scale(c, d)) == ClosestVertex(vertices, d)
  {
    var s := Similarities(vertices, d);
    var scaled := Similarities(vertices, Scale(c, d));
    SimilaritiesScale(vertices, d, c);
    ScalingKeepsOrder(s, scaled, c);
    ArgMaxOrderInvariant(s, scaled);
  }

  /**
    A target equal to a vertex that is strictly more similar to itself than to
    any other vertex is classified as that vertex. On a sphere of distinct unit
    vertices this separation is the equality case of the Cauchy-Schwarz bound.
  */
  lemma ClosestVertexOfVertex(vertices: seq<Vec3>, k: nat)
    requires k < |vertices|
    requires forall j :: 0 <= j < |vertices| && j != k ==>
      Dot(vertices[k], vertices[j]) < Dot(vertices[k], vertices[k])
    ensures ClosestVertex(vertices, vertices[k]) == k
  {
    var s := Similarities(vertices, vertices[k]);
    var c := ClosestVertex(vertices, vertices[k]);
    assert IsFirstArgMax(s, k) by {
      forall j | 0 <= j < |s| && j != k
        ensures s[j] < s[k]
      {
        assert s[j] == Dot(vertices[k], vertices[j]);
      }
    }
    FirstArgMaxUnique(s, k, c);
  }

  /** The cast `.type(torch.int16)`: two's-complement wrap-around to 16 bits. */
  function ToInt16(k: int): (r: int)
    ensures -32768 <= r < 32768
    ensures (r - k) % 65536 == 0
  {
    (k + 32768) % 65536 - 32768
  }

  /** The class labels compute_loss builds: the nearest vertex of each target, cast to int16. */
  function TargetLabels(vertices: seq<Vec3>, targets: seq<Vec3>): (labels: seq<int>)
    requires |vertices| > 0
    ensures |labels| == |targets|
    ensures forall i :: 0 <= i < |targets| ==> labels[i] == ToInt16(ClosestVertex(vertices, targets[i]))
  {
    seq(|targets|, i requires 0 <= i < |targets| => ToInt16(ClosestVertex(vertices, targets[i])))
  }

  /** On a sphere of at most 32768 vertices the int16 cast loses nothing: labels are vertex indices. */
  lemma TargetLabelsAreVertexIndices(vertices: seq<Vec3>, targets: seq<Vec3>)
    requires 0 < |vertices| <= 32768
    ensures forall i :: 0 <= i < |targets| ==>
      0 <= TargetLabels(vertices, targets)[i] < |vertices| &&
      TargetLabels(vertices, targets)[i] == ClosestVertex(vertices, targets[i])
  {
  }

  // -------------------------------------------------- deterministic direction

  function AsRow(v: Vec3): (r: Row)
    ensures |r| == 3 && r[0] == v.x && r[1] == v.y && r[2] == v.z
  {
    [v.x, v.y, v.z]
  }

  /**
    `get_tracking_direction_det` on one output row: regression returns the
    row itself, classification returns the vertex of the largest logit (first
    one on ties), and the Gaussian and Fisher families raise.
  */
  function DetDirectionOf(h: Head, row: Row): (r: Result<Row>)
    ensures (h.family == CosineRegression || h.family == L2Regression) ==> r == Ok(row)
    ensures h.family == SphereClassification && |row| == |h.vertices| > 0 ==>
      r.Ok? && exists k :: IsFirstArgMax(row, k) && r.value == AsRow(h.vertices[k])
    ensures h.family == SphereClassification && |row| == 0 ==> r.Err?
    ensures h.family !in {CosineRegression, L2Regression, SphereClassification} ==>
      r.Err? && r.error.NotImplementedError?
  {
    match h.family
    case CosineRegression => Ok(row)
    case L2Regression => Ok(row)
    case SphereClassification =>
      if |row| == 0 then Err(RuntimeError(EmptyArgMaxMessage))
      else
        var k := ArgMax(row);
        if k < |h.vertices| then Ok(AsRow(h.vertices[k])) else Err(IndexError)
    case _ => Err(NotImplementedError(""))
  }

  /** The deterministic direction fails by NotImplementedError exactly where the support table says it raises. */
  lemma DetDirectionAgreesWithSupport(h: Head, row: Row)
    requires h.family == SphereClassification ==> |row| == |h.vertices| > 0
    ensures DetDirectionOf(h, row).Ok? <==> SupportOf(h.family, DetDirection, h.nbGaussians) == Supported
    ensures DetDirectionOf(h, row).Err? ==>
      SupportOf(h.family, DetDirection, h.nbGaussians) == Raises(DetDirectionOf(h, row).error)
  {
  }

  // ------------------------------------------- Gaussian-mixture parameters

  /** Regroups one row of 3K values as K points: point c, coordinate d is value 3c + d. */
  function Triples(row: seq<real>): (r: seq<Vec3>)
    requires |row| % 3 == 0
    ensures |r| * 3 == |row|
    ensures forall c, d :: 0 <= c < |r| && 0 <= d < 3 ==> r[c].At(d) == row[3 * c + d]
    decreases |row|
  {
    if |row| == 0 then []
    else [Vec3(row[0], row[1], row[2])] + Triples(row[3..])
  }

  /** Concatenates the coordinates of `pts`, point after point. */
  function FlattenPoints(pts: seq<Vec3>): (r: seq<real>)
    ensures |r| == 3 * |pts|
  {
    if |pts| == 0 then [] else AsRow(pts[0]) + FlattenPoints(pts[1..])
  }

  lemma {:induction false} FlattenTriples(row: seq<real>)
    requires |row| % 3 == 0
    ensures FlattenPoints(Triples(row)) == row
    decreases |row|
  {
    if |row| > 0 {
      FlattenTriples(row[3..]);
      var t := Triples(row);
      assert t == [Vec3(row[0], row[1], row[2])] + Triples(row[3..]);
      assert t[1..] == Triples(row[3..]);
      assert row == row[..3] + row[3..];
    }
  }

  lemma {:induction false} TriplesFlatten(pts: seq<Vec3>)
    ensures Triples(FlattenPoints(pts)) == pts
    decreases |pts|
  {
    if |pts| > 0 {
      TriplesFlatten(pts[1..]);
      var f := FlattenPoints(pts);
      assert f == AsRow(pts[0]) + FlattenPoints(pts[1..]);
      assert f[3..] == FlattenPoints(pts[1..]);
      assert pts == [pts[0]] + pts[1..];
    }
  }

  /**
    `reshape((-1, K, 3))` of a head's [N, 3K] mean or sigma tensor: row n,
    component c, coordinate d is element 3c + d of row n. K = 0 cannot be
    reshaped.
  */
  function ReshapeComponents(m: Matrix, width: nat, k: nat): (r: Result<seq<seq<Vec3>>>)
    requires HasWidth(m, width)
    ensures r.Ok? <==> k > 0 && width == 3 * k
    ensures r.Ok? ==> |r.value| == |m|
    ensures r.Ok? ==> forall n :: 0 <= n < |m| ==> |r.value[n]| == k
    ensures r.Ok? ==> forall n, c, d :: 0 <= n < |m| && 0 <= c < k && 0 <= d < 3 ==>
      r.value[n][c].At(d) == m[n][3 * c + d]
  {
    if k == 0 || width != 3 * k then Err(RuntimeError(ReshapeMessage))
    else Ok(seq(|m|, n requires 0 <= n < |m| => Triples(m[n])))
  }

  /** The [N, 3K] view of a [N, K, 3] tensor. */
  function FlattenComponents(x: seq<seq<Vec3>>): (m: Matrix)
    ensures |m| == |x|
    ensures forall n :: 0 <= n < |x| ==> |m[n]| == 3 * |x[n]|
  {
    seq(|x|, n requires 0 <= n < |x| => FlattenPoints(x[n]))
  }

  /** Reshaping only regroups: flattening the components gives back the tensor, element for element. */
  lemma ReshapeThenFlatten(m: Matrix, k: nat)
    requires k > 0 && HasWidth(m, 3 * k)
    ensures ReshapeComponents(m, 3 * k, k).Ok?
    ensures FlattenComponents(ReshapeComponents(m, 3 * k, k).value) == m
    ensures |ReshapeComponents(m, 3 * k, k).value| * k * 3 == |m| * (3 * k)
  {
    var r := ReshapeComponents(m, 3 * k, k).value;
    assert |r| == |m|;
    assert |m| * k * 3 == |m| * (3 * k);
    forall n | 0 <= n < |m|
      ensures FlattenPoints(r[n]) == m[n]
    {
      FlattenTriples(m[n]);
    }
  }

  /** Flattening a well-formed [N, K, 3] tensor and reshaping it gives it back. */
  lemma FlattenThenReshape(x: seq<seq<Vec3>>, k: nat)
    requires k > 0
    requires forall n :: 0 <= n < |x| ==> |x[n]| == k
    ensures ReshapeComponents(FlattenComponents(x), 3 * k, k) == Ok(x)
  {
    var m := FlattenComponents(x);
    assert HasWidth(m, 3 * k);
    forall n | 0 <= n < |x|
      ensures Triples(m[n]) == x[n]
    {
      TriplesFlatten(x[n]);
    }
    assert ReshapeComponents(m, 3 * k, k).value == x;
  }

  /** The mixture logits after `squeeze(dim=1)`: a vector when K is 1, unchanged otherwise. */
  datatype Squeezed = Vector(v: seq<real>) | Unchanged(m: Matrix)

  function SqueezeColumn(logits: Matrix, k: nat): (r: Squeezed)
    requires HasWidth(logits, k)
    ensures r.Vector? <==> k == 1
    ensures r.Vector? ==> |r.v| == |logits| && forall n :: 0 <= n < |logits| ==> logits[n] == [r.v[n]]
    ensures r.Unchanged? ==> r.m == logits
  {
    if k == 1 then Vector(seq(|logits|, n requires 0 <= n < |logits| => logits[n][0]))
    else Unchanged(logits)
  }

  /** The three mixture tensors regrouped per component. */
  datatype MixtureParams = MixtureParams(logits: Squeezed, means: seq<seq<Vec3>>, sigmas: seq<seq<Vec3>>)

  /**
    `_get_gaussian_parameters` on a mixture head's outputs (logits [N, K],
    means and sigmas [N, 3K]): squeezes the logits and views the means and
    sigmas as [N, K, 3] without changing any value.
  */
  function GaussianParameters(h: Head, logits: Matrix, means: Matrix, sigmas: Matrix): (r: Result<MixtureParams>)
    requires HasWidth(logits, h.nbGaussians)
    requires HasWidth(means, 3 * h.nbGaussians) && HasWidth(sigmas, 3 * h.nbGaussians)
    ensures r.Ok? <==> h.nbGaussians > 0
    ensures r.Ok? ==> |r.value.means| == |means| && |r.value.sigmas| == |sigmas|
    ensures r.Ok? ==> FlattenComponents(r.value.means) == means && FlattenComponents(r.value.sigmas) == sigmas
  {
    var k := h.nbGaussians;
    if k == 0 then Err(RuntimeError(ReshapeMessage))
    else
      ReshapeThenFlatten(means, k);
      ReshapeThenFlatten(sigmas, k);
      Ok(MixtureParams(SqueezeColumn(logits, k),
                       ReshapeComponents(means, 3 * k, k).value,
                       ReshapeComponents(sigmas, 3 * k, k).value))
  }

  /**
    The mixture rows of the support table follow from the parameter
    regrouping: the loss raises exactly when the parameters cannot be
    regrouped, and it is malformed exactly when the regrouped logits were
    squeezed to a vector.
  */
  lemma MixtureLossSupport(h: Head, logits: Matrix, means: Matrix, sigmas: Matrix)
    requires h.family == GaussianMixture
    requires HasWidth(logits, h.nbGaussians)
    requires HasWidth(means, 3 * h.nbGaussians) && HasWidth(sigmas, 3 * h.nbGaussians)
    ensures SupportOf(h.family, ComputeLoss, h.nbGaussians).Raises? <==>
      GaussianParameters(h, logits, means, sigmas).Err?
    ensures SupportOf(h.family, ComputeLoss, h.nbGaussians).Malformed? <==>
      GaussianParameters(h, logits, means, sigmas).Ok? && GaussianParameters(h, logits, means, sigmas).value.logits.Vector?
    ensures SupportOf(h.family, ComputeLoss, h.nbGaussians).Supported? <==>
      GaussianParameters(h, logits, means, sigmas).Ok? && GaussianParameters(h, logits, means, sigmas).value.logits.Unchanged?
  {
  }

  /**
    `means[:, mixture_id, :]` for one scalar component index drawn for the
    whole batch, on [N, K, 3] means: every row's mean of that component, or
    IndexError when the index is not below K.
  */
  function SelectDrawnComponent(means: seq<seq<Vec3>>, k: nat, draw: nat): (r: Result<seq<Vec3>>)
    requires forall n :: 0 <= n < |means| ==> |means[n]| == k
    ensures r.Ok? <==> draw < k
    ensures r.Err? ==> r.error == IndexError
    ensures r.Ok? ==> |r.value| == |means| && forall n :: 0 <= n < |means| ==> r.value[n] == means[n][draw]
  {
    if draw < k then Ok(seq(|means|, n requires 0 <= n < |means| => means[n][draw]))
    else Err(IndexError)
  }

  /**
    The one-component row of the sampling table follows from the parameter
    regrouping: the squeezed logits are one categorical over the N rows, so
    the drawn index is below N; selecting it raises the table's error unless
    it is 0, and a batch of one row always samples its own mean.
  */
  lemma SingleComponentSampling(h: Head, logits: Matrix, means: Matrix, sigmas: Matrix, draw: nat)
    requires h.family == GaussianMixture && h.nbGaussians == 1
    requires HasWidth(logits, 1) && HasWidth(means, 3) && HasWidth(sigmas, 3)
    requires draw < |logits|
    ensures GaussianParameters(h, logits, means, sigmas).Ok?
    ensures GaussianParameters(h, logits, means, sigmas).value.logits.Vector?
    ensures |GaussianParameters(h, logits, means, sigmas).value.logits.v| == |logits|
    ensures SelectDrawnComponent(GaussianParameters(h, logits, means, sigmas).value.means, 1, draw).Ok? <==> draw == 0
    ensures SelectDrawnComponent(GaussianParameters(h, logits, means, sigmas).value.means, 1, draw).Err? ==>
      SupportOf(h.family, SampleProb, h.nbGaussians) ==
      DrawDependent(SelectDrawnComponent(GaussianParameters(h, logits, means, sigmas).value.means, 1, draw).error,
                    SingleComponentDrawMessage)
    ensures |logits| == |means| == 1 ==>
      SelectDrawnComponent(GaussianParameters(h, logits, means, sigmas).value.means, 1, draw).Ok? &&
      FlattenPoints(SelectDrawnComponent(GaussianParameters(h, logits, means, sigmas).value.means, 1, draw).value) == means[0]
  {
  }

  /**
    The sizes a constructed head gives its outputs fit the operations that
    consume them: a row of a classification head's logits always yields a
    vertex, and the mean and sigma widths of a mixture head reshape into its
    K components.
  */
  lemma HeadShapesFitConsumers(f: Family, args: HeadArgs, row: Row, means: Matrix)
    requires Construct(f, args).Ok?
    ensures f == SphereClassification && |row| == OutputSizes(Construct(f, args).value.networks)[0] > 0 ==>
      DetDirectionOf(Construct(f, args).value, row).Ok?
    ensures (f == GaussianMixture && args.nbGaussians > 0 &&
      HasWidth(means, OutputSizes(Construct(f, args).value.networks)[1])) ==>
      var w := OutputSizes(Construct(f, args).value.networks)[1];
      ReshapeComponents(means, w, args.nbGaussians).Ok? &&
      |ReshapeComponents(means, w, args.nbGaussians).value| == |means|
  {
  }
}

=== FILE: errors.dfy ===
/** Failure-compatible results for the exceptions the modelled Python code raises. */
module Errors {

  /** The exception classes the modelled code can raise, as the caller sees them. */
  datatype Error =
    | ValueError(message: string)
    | AssertionError(message: string)
    | NotImplementedError(message: string)
    | AttributeError(name: string)
    | IndexError
    | KeyError(key: string)
    | ZeroDivisionError
    | RuntimeError(message: string)

  /** Either the value an operation returns or the exception it raises. */
  datatype Result<+T> = Ok(value: T) | Err(error: Error) {

    predicate IsFailure() {
      Err?
    }

    function PropagateFailure<U>(): Result<U>
      requires Err?
    {
      Err(error)
    }

    function Extract(): T
      requires Ok?
    {
      value
    }
  }

  /** A check that raises `e` when `condition` does not hold. */
  datatype Check = Pass | Fail(error: Error) {

    predicate IsFailure() {
      Fail?
    }

    function PropagateFailure<U>(): Result<U>
      requires Fail?
    {
      Err(error)
    }
  }

  function Need(condition: bool, e: Error): (c: Check)
  {
    if condition then Pass else Fail(e)
  }

  /** Python's optional argument: `None` or a value. */
  datatype Option<+T> = None | Some(value: T)
}

=== FILE: geometry.dfy ===
/** Points, directions and tensor rows shared by every modelled component. */
module Geometry {

  /** A 3-D point or direction. */
  datatype Vec3 = Vec3(x: real, y: real, z: real) {

    /** Coordinate `d` (0 = x, 1 = y, 2 = z). */
    function At(d: nat): real
      requires d < 3
    {
      if d == 0 then x else if d == 1 then y else z
    }
  }

  function Dot(a: Vec3, b: Vec3): real
  {
    a.x * b.x + a.y * b.y + a.z * b.z
  }

  function Scale(c: real, v: Vec3): Vec3
  {
    Vec3(c * v.x, c * v.y, c * v.z)
  }

  function Sub(a: Vec3, b: Vec3): Vec3
  {
    Vec3(a.x - b.x, a.y - b.y, a.z - b.z)
  }

  /** A streamline: its ordered points. */
  type Streamline = seq<Vec3>

  /** One row of a 2-D tensor (one time step, all features). */
  type Row = seq<real>

  /** A 2-D tensor `[nb rows, width]` as its rows. */
  type Matrix = seq<Row>

  /** Every row of `m` has `width` features: the rectangular shape of a tensor. */
  predicate HasWidth(m: Matrix, width: nat)
  {
    forall i :: 0 <= i < |m| ==> |m[i]| == width
  }

  /** The all-zero row torch's constant padding inserts. */
  function ZeroRow(width: nat): (r: Row)
    ensures |r| == width
  {
    seq(width, _ => 0.0)
  }

  function ScaleRow(c: real, r: Row): (s: Row)
    ensures |s| == |r|
  {
    seq(|r|, i requires 0 <= i < |r| => c * r[i])
  }

  /**
    Element-wise sum of two rows. Every caller passes rows of one width (the
    matrices it adds carry `HasWidth`); on unequal widths the sum stops at
    the shorter row.
  */
  function AddRow(a: Row, b: Row): (s: Row)
    ensures |s| == if |a| <= |b| then |a| else |b|
    ensures forall i :: 0 <= i < |s| ==> s[i] == a[i] + b[i]
  {
    seq(if |a| <= |b| then |a| else |b|, i requires 0 <= i < |a| && i < |b| => a[i] + b[i])
  }

  lemma DotScale(c: real, d: Vec3, v: Vec3)
    ensures Dot(Scale(c, d), v) == c * Dot(d, v)
  {
  }
}

=== FILE: tracking_validation.dfy ===
/**
  The tracking-validation phase of the trainer for generative models: every
  `frequency` epochs, validation lines are cut down to short seeds, tracked
  again from those seeds by the propagation engine, and scored by the
  distance between the tracked and the true last points (its mean, and the
  percentage of "invalid" lines whose distance exceeds 25.98). The engine, the
  distance and the monitors' averaging are opaque; the model covers the
  truncation, the scoring, the schedule, the monitor updates the trainer
  issues, the resume rule and the choice of the supervising loss.
*/
module TrackingValidation {
  import opened Errors
  import opened Geometry

  // The messages of the errors raised below.
  const CompressedPropagationMessage := "We can't propagate compressed streamlines."
  const EmptyVStackMessage := "vstack expects a non-empty TensorList"
  const BroadcastMessage := "The size of tensor a must match the size of tensor b"

  function Min(a: int, b: int): int { if a <= b then a else b }

  // ------------------------------------------------------------ seeds

  /** The Python slice `s[0:stop]`: a negative stop counts from the end, and both ends are clamped. */
  function PrefixSlice<T>(s: seq<T>, stop: int): (r: seq<T>)
    ensures |r| <= |s|
    ensures stop >= 0 ==> |r| == Min(stop, |s|)
    ensures stop < 0 ==> |r| == (if |s| + stop >= 0 then |s| + stop else 0)
    ensures r == s[..|r|]
  {
    if stop >= |s| then s
    else if stop >= 0 then s[..stop]
    else if |s| + stop >= 0 then s[..|s| + stop]
    else []
  }

  /** The seed of a validation line: its first `min(len, nbStepsInit)` points. */
  function Seed(line: Streamline, nbStepsInit: int): (seed: Streamline)
    ensures |seed| <= |line| && seed == line[..|seed|]
    ensures nbStepsInit >= 0 ==> |seed| == Min(|line|, nbStepsInit)
  {
    PrefixSlice(line, Min(|line|, nbStepsInit))
  }

  /** A seed never holds more points than requested, and a short line is kept whole. */
  lemma SeedLength(line: Streamline, nbStepsInit: nat)
    ensures |Seed(line, nbStepsInit)| <= nbStepsInit
    ensures |line| <= nbStepsInit ==> Seed(line, nbStepsInit) == line
    ensures |line| >= nbStepsInit ==> |Seed(line, nbStepsInit)| == nbStepsInit
  {
  }

  // ------------------------------------------------------------ the invalid-streamline ratio

  /** Half the diagonal of a 30 mm box, `sqrt(3 * 15^2)` rounded: beyond it a tracked line counts as invalid. */
  const IsThreshold: real := 25.98

  /** The number of distances strictly above `threshold`. */
  function CountAbove(ds: seq<real>, threshold: real): (c: nat)
    ensures c <= |ds|
    ensures c == 0 <==> forall i :: 0 <= i < |ds| ==> ds[i] <= threshold
    ensures c == |ds| <==> forall i :: 0 <= i < |ds| ==> ds[i] > threshold
    decreases |ds|
  {
    if |ds| == 0 then 0
    else
      var front := ds[..|ds| - 1];
      assert forall i :: 0 <= i < |ds| - 1 ==> front[i] == ds[i];
      CountAbove(front, threshold) + if ds[|ds| - 1] > threshold then 1 else 0
  }

  /** The indices of the distances strictly above `threshold`. */
  function IndicesAbove(ds: seq<real>, threshold: real): set<nat>
  {
    set i: nat | i < |ds| && ds[i] > threshold
  }

  /** The count is the number of indices whose distance is strictly above the threshold. */
  lemma {:induction false} CountAboveCountsIndices(ds: seq<real>, threshold: real)
    ensures CountAbove(ds, threshold) == |IndicesAbove(ds, threshold)|
    decreases |ds|
  {
    if |ds| > 0 {
      var n := |ds| - 1;
      var front := ds[..n];
      CountAboveCountsIndices(front, threshold);
      assert IndicesAbove(front, threshold) == set i: nat | i < n && ds[i] > threshold;
      if ds[n] > threshold {
        assert IndicesAbove(ds, threshold) == IndicesAbove(front, threshold) + {n};
        assert n !in IndicesAbove(front, threshold);
      } else {
        assert IndicesAbove(ds, threshold) == IndicesAbove(front, threshold);
      }
    }
  }

  /** `sum(loss > threshold) / n * 100`: the percentage of lines counted invalid. */
  function IsRatio(count: nat, nbLines: nat): (ratio: real)
    requires nbLines > 0
    ensures ratio * nbLines as real == 100.0 * count as real
  {
    count as real / nbLines as real * 100.0
  }

  /** With at most one count per line, the ratio is a percentage: 0 exactly when none is invalid, 100 exactly when all are. */
  lemma IsRatioIsPercentage(count: nat, nbLines: nat)
    requires 0 < nbLines && count <= nbLines
    ensures 0.0 <= IsRatio(count, nbLines) <= 100.0
    ensures IsRatio(count, nbLines) == 0.0 <==> count == 0
    ensures IsRatio(count, nbLines) == 100.0 <==> count == nbLines
  {
    var r := IsRatio(count, nbLines);
    var n := nbLines as real;
    assert r * n == 100.0 * count as real;
    ProductBounds(r, n, 100.0 * count as real);
  }

  /** Dividing out a positive factor from `r * n == p` with `0 <= p <= 100 n`. */
  lemma ProductBounds(r: real, n: real, p: real)
    requires n > 0.0 && r * n == p
    ensures p >= 0.0 ==> r >= 0.0
    ensures p <= 100.0 * n ==> r <= 100.0
    ensures r == 0.0 <==> p == 0.0
    ensures r == 100.0 <==> p == 100.0 * n
  {
  }

  /** The arithmetic mean `torch.mean` returns. */
  function Mean(ds: seq<real>): (m: real)
    requires |ds| > 0
    ensures m * |ds| as real == SumReals(ds)
  {
    SumReals(ds) / |ds| as real
  }

  function SumReals(ds: seq<real>): real
    decreases |ds|
  {
    if |ds| == 0 then 0.0 else SumReals(ds[..|ds| - 1]) + ds[|ds| - 1]
  }

  /** The mean of distances no larger than `hi` is no larger than `hi`. */
  lemma MeanBelow(ds: seq<real>, hi: real)
    requires |ds| > 0
    requires forall i :: 0 <= i < |ds| ==> ds[i] <= hi
    ensures Mean(ds) <= hi
  {
    SumBelow(ds, hi);
    var n := |ds| as real;
    var m := Mean(ds);
    if m > hi {
      assert (m - hi) * n > 0.0;
    }
  }

  lemma {:induction false} SumBelow(ds: seq<real>, hi: real)
    requires forall i :: 0 <= i < |ds| ==> ds[i] <= hi
    ensures SumReals(ds) <= |ds| as real * hi
    decreases |ds|
  {
    if |ds| > 0 {
      SumBelow(ds[..|ds| - 1], hi);
      assert (|ds| - 1) as real * hi + hi == |ds| as real * hi;
    }
  }

  // ------------------------------------------------------------ propagation settings

  /** `int(x)`: truncation toward zero. */
  function Truncate(x: real): (n: int)
    ensures x >= 0.0 ==> n >= 0 && n as real <= x < n as real + 1.0
    ensures x < 0.0 ==> n <= 0 && n as real - 1.0 < x <= n as real
  {
    if x >= 0.0 then x.Floor else -((-x).Floor)
  }

  /** Tracks are capped at 200 mm of steps. */
  const MaxTrackLength: real := 200.0

  /** `int(200 / step_size)`: the point cap. A zero step size divides by zero. */
  function MaxPoints(stepSize: real): (r: Result<int>)
    ensures r.Err? <==> stepSize == 0.0
    ensures r.Err? ==> r.error == ZeroDivisionError
    ensures r.Ok? && stepSize > 0.0 ==> r.value >= 0
    ensures r.Ok? && stepSize > 0.0 ==> r.value as real * stepSize <= MaxTrackLength < (r.value as real + 1.0) * stepSize
  {
    if stepSize == 0.0 then Err(ZeroDivisionError)
    else
      var q := MaxTrackLength / stepSize;
      var n := Truncate(q);
      assert stepSize > 0.0 ==> n as real * stepSize <= MaxTrackLength < (n as real + 1.0) * stepSize by {
        if stepSize > 0.0 {
          CapBounds(n as real, q, stepSize);
        }
      }
      Ok(n)
  }

  lemma CapBounds(n: real, q: real, s: real)
    requires s > 0.0 && q == MaxTrackLength / s
    requires n <= q < n + 1.0
    ensures n * s <= MaxTrackLength < (n + 1.0) * s
  {
    assert q * s == MaxTrackLength;
    assert (q - n) * s >= 0.0;
    assert (n + 1.0 - q) * s > 0.0;
  }

  /** The arguments the trainer passes to the propagation engine. */
  datatype EngineSettings = EngineSettings(
    thetaDegrees: int, stepSize: real, verifyOppositeDirection: bool,
    maxNbrPoints: int, appendLastPoint: bool, normalizeDirections: bool)

  /**
    The settings of `propagate_multiple_lines`: a step size is required
    (compressed lines cannot be propagated), the turning angle is a full 360
    degrees, and the point cap is `int(200 / step_size)`.
  */
  function PropagationSettings(stepSize: Option<real>): (r: Result<EngineSettings>)
    ensures stepSize.None? ==> r.Err? && r.error.AssertionError?
    ensures r.Ok? <==> stepSize.Some? && stepSize.value != 0.0
    ensures r.Ok? ==> r.value.stepSize == stepSize.value && r.value.thetaDegrees == 360
    ensures r.Ok? ==> !r.value.verifyOppositeDirection && !r.value.appendLastPoint && r.value.normalizeDirections
    ensures r.Ok? && stepSize.value > 0.0 ==> r.value.maxNbrPoints as real * stepSize.value <= MaxTrackLength
  {
    if stepSize.None? then Err(AssertionError(CompressedPropagationMessage))
    else
      var cap := MaxPoints(stepSize.value);
      if cap.Err? then Err(cap.error)
      else Ok(EngineSettings(360, stepSize.value, false, cap.value, false, true))
  }

  /** The propagation engine, which is not part of this model, as a function of its settings and seeds. */
  type Engine = (EngineSettings, seq<Streamline>) -> seq<Streamline>

  function PropagateMultipleLines(seeds: seq<Streamline>, stepSize: Option<real>, engine: Engine): (r: Result<seq<Streamline>>)
    ensures r.Ok? <==> PropagationSettings(stepSize).Ok?
    ensures r.Ok? ==> r.value == engine(PropagationSettings(stepSize).value, seeds)
  {
    var settings := PropagationSettings(stepSize);
    if settings.Err? then Err(settings.error) else Ok(engine(settings.value, seeds))
  }

  // ------------------------------------------------------------ one batch

  /** `torch.vstack([line[-1, :] for line in lines])`: an empty line has no last point, an empty batch cannot be stacked. */
  function LastPoints(lines: seq<Streamline>): (r: Result<seq<Vec3>>)
    ensures r.Ok? <==> |lines| > 0 && forall i :: 0 <= i < |lines| ==> |lines[i]| > 0
    ensures (exists i :: 0 <= i < |lines| && |lines[i]| == 0) ==> r == Err(IndexError)
    ensures r.Ok? ==> |r.value| == |lines| && forall i :: 0 <= i < |lines| ==> r.value[i] == lines[i][|lines[i]| - 1]
  {
    if exists i :: 0 <= i < |lines| && |lines[i]| == 0 then Err(IndexError)
    else if |lines| == 0 then Err(RuntimeError(EmptyVStackMessage))
    else Ok(seq(|lines|, i requires 0 <= i < |lines| => lines[i][|lines[i]| - 1]))
  }

  /** A distance between two points, such as torch's `PairwiseDistance(p=2)`. */
  type Distance = (Vec3, Vec3) -> real

  /** Row-wise distances, with a single row broadcast against the other side. */
  function PairwiseDistances(a: seq<Vec3>, b: seq<Vec3>, dist: Distance): (r: Result<seq<real>>)
    ensures r.Ok? <==> |a| == |b| || |a| == 1 || |b| == 1
    ensures r.Ok? && |a| == |b| ==> |r.value| == |a| && forall i :: 0 <= i < |a| ==> r.value[i] == dist(a[i], b[i])
  {
    if |a| == |b| then Ok(seq(|a|, i requires 0 <= i < |a| => dist(a[i], b[i])))
    else if |a| == 1 then Ok(seq(|b|, i requires 0 <= i < |b| => dist(a[0], b[i])))
    else if |b| == 1 then Ok(seq(|a|, i requires 0 <= i < |a| => dist(a[i], b[0])))
    else Err(RuntimeError(BroadcastMessage))
  }

  /** What one validation batch yields: the mean distance, the number of tracked lines and the invalid ratio. */
  datatype BatchScore = BatchScore(meanLoss: real, nbLines: nat, isRatio: real)

  /**
    `generate_from_one_batch`: remember each line's true last point, cut the
    lines to seeds, propagate, and compare each tracked last point with the
    true one.
  */
  function GenerateFromOneBatch(lines: seq<Streamline>, nbStepsInit: int, stepSize: Option<real>,
                                engine: Engine, dist: Distance): (r: Result<BatchScore>)
    ensures |lines| == 0 ==> r.Err? && r.error.RuntimeError?
    ensures (exists i :: 0 <= i < |lines| && |lines[i]| == 0) ==> r == Err(IndexError)
    ensures LastPoints(lines).Ok? && stepSize.None? ==> r.Err? && r.error.AssertionError?
    ensures r.Ok? ==> PropagationSettings(stepSize).Ok?
    ensures r.Ok? ==> var tracked := engine(PropagationSettings(stepSize).value, Seeds(lines, nbStepsInit));
      r.value.nbLines == |tracked| > 0
  {
    var truth := LastPoints(lines);
    if truth.Err? then Err(truth.error)
    else
      var tracked := PropagateMultipleLines(Seeds(lines, nbStepsInit), stepSize, engine);
      if tracked.Err? then Err(tracked.error)
      else
        var reached := LastPoints(tracked.value);
        if reached.Err? then Err(reached.error)
        else
          var loss := PairwiseDistances(reached.value, truth.value, dist);
          if loss.Err? then Err(loss.error)
          else
            var n := |tracked.value|;
            Ok(BatchScore(Mean(loss.value), n, IsRatio(CountAbove(loss.value, IsThreshold), n)))
  }

  /** Every line cut to its seed. */
  function Seeds(lines: seq<Streamline>, nbStepsInit: int): (seeds: seq<Streamline>)
    ensures |seeds| == |lines|
    ensures forall i :: 0 <= i < |lines| ==> seeds[i] == Seed(lines[i], nbStepsInit)
  {
    seq(|lines|, i requires 0 <= i < |lines| => Seed(lines[i], nbStepsInit))
  }

  /** The distance of line `i`: from its tracked last point to the last point of the full, untruncated line. */
  function LineDistances(lines: seq<Streamline>, tracked: seq<Streamline>, dist: Distance): (ds: seq<real>)
    requires |tracked| == |lines|
    requires forall i :: 0 <= i < |lines| ==> |lines[i]| > 0 && |tracked[i]| > 0
    ensures |ds| == |lines|
  {
    seq(|lines|, i requires 0 <= i < |lines| =>
      dist(tracked[i][|tracked[i]| - 1], lines[i][|lines[i]| - 1]))
  }

  /**
    When the engine tracks one non-empty line per seed, the batch score is the
    mean of the line distances, the number of lines, and the percentage of
    distances strictly above 25.98, which lies in [0, 100].
  */
  lemma BatchScoreOfTrackedLines(lines: seq<Streamline>, nbStepsInit: int, stepSize: real,
                                 engine: Engine, dist: Distance)
    requires |lines| > 0 && forall i :: 0 <= i < |lines| ==> |lines[i]| > 0
    requires stepSize != 0.0
    requires var tracked := engine(PropagationSettings(Some(stepSize)).value, Seeds(lines, nbStepsInit));
      |tracked| == |lines| && forall i :: 0 <= i < |tracked| ==> |tracked[i]| > 0
    ensures var tracked := engine(PropagationSettings(Some(stepSize)).value, Seeds(lines, nbStepsInit));
      var ds := LineDistances(lines, tracked, dist);
      var r := GenerateFromOneBatch(lines, nbStepsInit, Some(stepSize), engine, dist);
      r.Ok? && r.value.nbLines == |lines| && r.value.meanLoss == Mean(ds) &&
      r.value.isRatio == IsRatio(CountAbove(ds, IsThreshold), |lines|) &&
      0.0 <= r.value.isRatio <= 100.0
  {
    var tracked := engine(PropagationSettings(Some(stepSize)).value, Seeds(lines, nbStepsInit));
    var ds := LineDistances(lines, tracked, dist);
    var truth := LastPoints(lines).value;
    var reached := LastPoints(tracked).value;
    assert PairwiseDistances(reached, truth, dist).value == ds;
    IsRatioIsPercentage(CountAbove(ds, IsThreshold), |lines|);
  }

  // ------------------------------------------------------------ the validation phase

  /** A monitor update: a value and its weight (`None` for the monitor's default weight). */
  datatype Update = Update(value: real, weight: Option<nat>)

  /** The updates an epoch issues to the tracking-loss and the invalid-ratio monitors. */
  datatype EpochUpdates = EpochUpdates(loss: seq<Update>, invalidRatio: seq<Update>)

  /** The inputs of one tracking-validation phase. */
  datatype TrackingPhase = TrackingPhase(
    batches: seq<seq<Streamline>>, nbValidBatches: int, nbStepsInit: int,
    stepSize: Option<real>, engine: Engine, dist: Distance)

  /** The number of batches the loop handles: it stops on reaching batch number `nbValidBatches`. */
  function BatchesHandled(nbBatches: nat, nbValidBatches: int): (k: nat)
    ensures k <= nbBatches
    ensures 0 <= nbValidBatches <= nbBatches ==> k == nbValidBatches
  {
    if 0 <= nbValidBatches <= nbBatches then nbValidBatches else nbBatches
  }

  /** Scoring batches in order and issuing one weighted update per batch to each monitor; the first failure stops the phase. */
  function ScoreBatches(batches: seq<seq<Streamline>>, phase: TrackingPhase): (r: Result<EpochUpdates>)
    ensures r.Ok? <==> forall b :: 0 <= b < |batches| ==>
      GenerateFromOneBatch(batches[b], phase.nbStepsInit, phase.stepSize, phase.engine, phase.dist).Ok?
    ensures r.Ok? ==> |r.value.loss| == |batches| && |r.value.invalidRatio| == |batches|
    ensures r.Ok? ==> forall b :: 0 <= b < |batches| ==>
      var s := GenerateFromOneBatch(batches[b], phase.nbStepsInit, phase.stepSize, phase.engine, phase.dist).value;
      r.value.loss[b] == Update(s.meanLoss, Some(s.nbLines)) &&
      r.value.invalidRatio[b] == Update(s.isRatio, Some(s.nbLines))
    decreases |batches|
  {
    if |batches| == 0 then Ok(EpochUpdates([], []))
    else
      var first := GenerateFromOneBatch(batches[0], phase.nbStepsInit, phase.stepSize, phase.engine, phase.dist);
      if first.Err? then Err(first.error)
      else
        var rest := ScoreBatches(batches[1..], phase);
        if rest.Err? then Err(rest.error)
        else
          var s := first.value;
          Ok(EpochUpdates([Update(s.meanLoss, Some(s.nbLines))] + rest.value.loss,
                          [Update(s.isRatio, Some(s.nbLines))] + rest.value.invalidRatio))
  }

  /** `validate_using_tracking`: the batches before number `nbValidBatches`, each scored and reported with its line count as weight. */
  function ValidateUsingTracking(phase: TrackingPhase): (r: Result<EpochUpdates>)
    ensures r.Ok? ==> |r.value.loss| == BatchesHandled(|phase.batches|, phase.nbValidBatches)
    ensures r.Ok? ==> |r.value.invalidRatio| == |r.value.loss|
  {
    ScoreBatches(phase.batches[..BatchesHandled(|phase.batches|, phase.nbValidBatches)], phase)
  }

  /**
    Whether epoch `epoch` (counted from 0) runs the tracking phase:
    `(epoch + 1) % frequency == 0`. The remainder is zero exactly when
    `frequency` divides `epoch + 1`, whichever sign convention `%` uses.
  */
  predicate IsTrackingEpoch(epoch: int, frequency: int)
    requires frequency != 0
  {
    (epoch + 1) % frequency == 0
  }

  /** The last element, Python's `xs[-1]`. */
  function LastOf(xs: seq<real>): (r: Result<real>)
    ensures r.Ok? <==> |xs| > 0
    ensures r.Ok? ==> r.value == xs[|xs| - 1]
    ensures r.Err? ==> r.error == IndexError
  {
    if |xs| == 0 then Err(IndexError) else Ok(xs[|xs| - 1])
  }

  /**
    `validate_one_epoch`, for the tracking monitors: on a tracking epoch, the
    updates of the tracking phase; otherwise each monitor's previous epoch
    average, carried forward as its only update.
  */
  function ValidateOneEpoch(epoch: int, frequency: int, lossHistory: seq<real>, ratioHistory: seq<real>,
                            phase: TrackingPhase): (r: Result<EpochUpdates>)
    ensures frequency == 0 ==> r == Err(ZeroDivisionError)
    ensures frequency != 0 && IsTrackingEpoch(epoch, frequency) ==> r == ValidateUsingTracking(phase)
    ensures frequency != 0 && !IsTrackingEpoch(epoch, frequency) ==>
      (r.Ok? <==> |lossHistory| > 0 && |ratioHistory| > 0) &&
      (r.Err? ==> r.error == IndexError) &&
      (r.Ok? ==> r.value == EpochUpdates([Update(lossHistory[|lossHistory| - 1], None)],
                                          [Update(ratioHistory[|ratioHistory| - 1], None)]))
  {
    if frequency == 0 then Err(ZeroDivisionError)
    else if IsTrackingEpoch(epoch, frequency) then ValidateUsingTracking(phase)
    else
      var lastLoss := LastOf(lossHistory);
      if lastLoss.Err? then Err(lastLoss.error)
      else
        var lastRatio := LastOf(ratioHistory);
        if lastRatio.Err? then Err(lastRatio.error)
        else Ok(EpochUpdates([Update(lastLoss.value, None)], [Update(lastRatio.value, None)]))
  }

  /** With a frequency of one every epoch tracks, so no history is ever read. */
  lemma FrequencyOneAlwaysTracks(epoch: int, lossHistory: seq<real>, ratioHistory: seq<real>, phase: TrackingPhase)
    ensures ValidateOneEpoch(epoch, 1, lossHistory, ratioHistory, phase) == ValidateUsingTracking(phase)
  {
  }

  /**
    The first epoch with fresh monitors: unless the frequency divides 1, the
    epoch carries forward a previous average that does not exist yet.
  */
  lemma FirstEpochNeedsHistory(frequency: int, phase: TrackingPhase)
    requires frequency != 0 && frequency != 1 && frequency != -1
    ensures ValidateOneEpoch(0, frequency, [], [], phase) == Err(IndexError)
  {
    OneModIsOne(frequency);
  }

  lemma OneModIsOne(f: int)
    requires f >= 2 || f <= -2
    ensures 1 % f == 1
  {
    var q := 1 / f;
    var r := 1 % f;
    if f > 0 {
      DivisionUnique(1, f, q, r, 0, 1);
    } else {
      assert 1 == (-q) * (-f) + r;
      DivisionUnique(1, -f, -q, r, 0, 1);
    }
  }

  /** The number of tracking epochs among the first `nbEpochs` epochs. */
  function TrackingEpochsBefore(nbEpochs: nat, frequency: int): nat
    requires frequency != 0
  {
    if nbEpochs == 0 then 0
    else TrackingEpochsBefore(nbEpochs - 1, frequency) + if IsTrackingEpoch(nbEpochs - 1, frequency) then 1 else 0
  }

  /** Over `m` full periods of `frequency` epochs, the tracking phase runs exactly `m` times, once per period. */
  lemma {:induction false} TrackingOncePerPeriod(m: nat, frequency: nat)
    requires frequency > 0
    ensures TrackingEpochsBefore(m * frequency, frequency) == m
    decreases m
  {
    if m > 0 {
      TrackingOncePerPeriod(m - 1, frequency);
      OnePeriod(m - 1, frequency, frequency);
      NextMultiple(m, frequency);
    }
  }

  lemma NextMultiple(m: nat, frequency: nat)
    requires m > 0
    ensures (m - 1) * frequency + frequency == m * frequency
  {
  }

  /** Within the period after `p` full periods, only the period's last epoch tracks. */
  lemma {:induction false} OnePeriod(p: nat, frequency: nat, k: nat)
    requires frequency > 0 && k <= frequency
    ensures TrackingEpochsBefore(p * frequency + k, frequency) ==
      TrackingEpochsBefore(p * frequency, frequency) + (if k == frequency then 1 else 0)
    decreases k
  {
    if k > 0 {
      OnePeriod(p, frequency, k - 1);
      ModOfPeriod(p, frequency, k);
      assert IsTrackingEpoch(p * frequency + k - 1, frequency) <==> k == frequency;
    }
  }

  lemma ModOfPeriod(p: nat, frequency: nat, k: nat)
    requires frequency > 0 && 0 < k <= frequency
    ensures (p * frequency + k) % frequency == 0 <==> k == frequency
  {
    if k == frequency {
      assert p * frequency + k == (p + 1) * frequency;
      ModOfMultiple(p + 1, frequency);
    } else {
      ModSmall(p, frequency, k);
    }
  }

  lemma ModOfMultiple(p: nat, frequency: nat)
    requires frequency > 0
    ensures (p * frequency) % frequency == 0
  {
    var n := p * frequency;
    DivisionUnique(n, frequency, n / frequency, n % frequency, p, 0);
  }

  lemma ModSmall(p: nat, frequency: nat, k: nat)
    requires frequency > 0 && 0 < k < frequency
    ensures (p * frequency + k) % frequency == k
  {
    var n := p * frequency + k;
    DivisionUnique(n, frequency, n / frequency, n % frequency, p, k);
  }

  /** Quotient and remainder by a positive divisor are unique. */
  lemma DivisionUnique(n: int, f: int, q1: int, r1: int, q2: int, r2: int)
    requires f > 0
    requires n == q1 * f + r1 && 0 <= r1 < f
    requires n == q2 * f + r2 && 0 <= r2 < f
    ensures q1 == q2 && r1 == r2
  {
    if q1 > q2 {
      AtLeastOnce(q1 - q2, f);
    } else if q1 < q2 {
      AtLeastOnce(q2 - q1, f);
    }
  }

  lemma AtLeastOnce(d: int, f: int)
    requires d >= 1 && f > 0
    ensures d * f >= f
  {
    assert (d - 1) * f >= 0;
  }

  // ------------------------------------------------------------ checkpoints

  /** The saved state of a history monitor: its per-epoch averages, its epoch counter and whatever else it holds. */
  datatype MonitorState = MonitorState(averagePerEpoch: seq<real>, currentEpoch: int, batchValues: seq<Update>)

  /** The state table of a checkpoint. */
  type States = map<string, MonitorState>

  const LossStateKey: string := "tracking_valid_loss_monitor_state"
  const RatioStateKey: string := "tracking_valid_IS_monitor_state"

  /** The two tracking monitors of the trainer. */
  datatype TrackingMonitors = TrackingMonitors(loss: MonitorState, invalidRatio: MonitorState)

  /** `_prepare_checkpoint_info`: both monitors' states are added to the states being saved. */
  function PrepareCheckpointInfo(states: States, monitors: TrackingMonitors): (saved: States)
    ensures LossStateKey in saved && saved[LossStateKey] == monitors.loss
    ensures RatioStateKey in saved && saved[RatioStateKey] == monitors.invalidRatio
    ensures forall k :: k in states && k != LossStateKey && k != RatioStateKey ==> k in saved && saved[k] == states[k]
    ensures saved.Keys == states.Keys + {LossStateKey, RatioStateKey}
  {
    states[LossStateKey := monitors.loss][RatioStateKey := monitors.invalidRatio]
  }

  /** The invalid-ratio history installed on resume: 150 zero averages, at epoch 149. */
  function ResumedRatioMonitor(current: MonitorState): (m: MonitorState)
    ensures |m.averagePerEpoch| == 150 && forall e :: 0 <= e < 150 ==> m.averagePerEpoch[e] == 0.0
    ensures m.currentEpoch == 149
    ensures m.batchValues == current.batchValues
  {
    current.(averagePerEpoch := seq(150, _ => 0.0), currentEpoch := 149)
  }

  /**
    `_update_states_from_checkpoint`: the loss monitor is restored from the
    checkpoint (a missing entry is a KeyError); the invalid-ratio monitor is
    not restored but reset to 150 zero averages at epoch 149.
  */
  function UpdateStatesFromCheckpoint(states: States, current: TrackingMonitors): (r: Result<TrackingMonitors>)
    ensures r.Ok? <==> LossStateKey in states
    ensures r.Err? ==> r.error == KeyError(LossStateKey)
    ensures r.Ok? ==> r.value.loss == states[LossStateKey]
    ensures r.Ok? ==> r.value.invalidRatio == ResumedRatioMonitor(current.invalidRatio)
  {
    if LossStateKey !in states then Err(KeyError(LossStateKey))
    else Ok(TrackingMonitors(states[LossStateKey], ResumedRatioMonitor(current.invalidRatio)))
  }

  /**
    Saving then resuming gives back the loss monitor exactly, while the saved
    invalid-ratio state is never read: two checkpoints that differ only in it
    resume identically.
  */
  lemma ResumeRestoresLossOnly(states: States, saved: TrackingMonitors, current: TrackingMonitors, otherRatio: MonitorState)
    ensures UpdateStatesFromCheckpoint(PrepareCheckpointInfo(states, saved), current)
      == Ok(TrackingMonitors(saved.loss, ResumedRatioMonitor(current.invalidRatio)))
    ensures UpdateStatesFromCheckpoint(PrepareCheckpointInfo(states, saved), current)
      == UpdateStatesFromCheckpoint(PrepareCheckpointInfo(states, saved.(invalidRatio := otherRatio)), current)
  {
  }

  /** After a resume the invalid-ratio history is non-empty, so the next carried-forward epoch can read it. */
  lemma ResumedRatioHistoryReadable(states: States, current: TrackingMonitors)
    requires LossStateKey in states
    ensures LastOf(UpdateStatesFromCheckpoint(states, current).value.invalidRatio.averagePerEpoch) == Ok(0.0)
  {
  }

  // ------------------------------------------------------------ best-model supervision

  /**
    `_get_latest_loss_to_supervise_best`: the last tracking-validation loss
    average when validation is used, otherwise the last training-loss average.
  */
  function LatestLossToSuperviseBest(useValidation: bool, trackingLossHistory: seq<real>,
                                     trainLossHistory: seq<real>): (r: Result<real>)
    ensures useValidation ==> (r.Ok? <==> |trackingLossHistory| > 0)
    ensures !useValidation ==> (r.Ok? <==> |trainLossHistory| > 0)
    ensures r.Ok? && useValidation ==> r.value == trackingLossHistory[|trackingLossHistory| - 1]
    ensures r.Ok? && !useValidation ==> r.value == trainLossHistory[|trainLossHistory| - 1]
    ensures r.Err? ==> r.error == IndexError
  {
    if useValidation then LastOf(trackingLossHistory) else LastOf(trainLossHistory)
  }
}

=== FILE: transforming_tractography.dfy ===
/**
  The sequence bookkeeping of the encoder-decoder tractography transformer:
  padding lines to a common length, the padding and future masks, the checks
  `forward` makes before running the layers, the choice of output rows in the
  tracking context, the unpad / stack / split round trip in the other
  contexts, the "copy previous direction" skip connection and the sizes the
  constructor derives. The attention layers, embeddings and positional
  encodings are opaque: they appear only as the per-line outputs they return
  and as the row-wise direction-getter head applied after them.
*/
module TransformingTractography {
  import opened Errors
  import opened Geometry
  import DirectionGetters

  // The messages of the errors raised below.
  const NegativePadMessage := "negative output size after padding"
  const EmptyStackMessage := "stack expects a non-empty TensorList"
  const UnequalStackMessage := "stack expects each tensor to be equal size"
  const UnknownContextMessage := "unknown context"
  const NoContextMessage := "Please set context before usage."
  const LengthMismatchMessage := "input and streamline lengths differ"
  const TooLongMessage := "Some streamlines were longer than accepted max length for sequences"
  const EmptyVStackMessage := "vstack expects a non-empty TensorList"
  const SplitSizesMessage := "split sizes do not sum to the dimension"
  const BroadcastMessage := "The size of tensor a must match the size of tensor b"

  // ------------------------------------------------------------ padding

  /**
    Zero-padding a line `[len, width]` at its end to `expected` rows, as torch's
    constant `pad` with `(0, 0, 0, expected - len)` does. A negative pad amount
    crops rows from the end instead; an output size below zero is an error.
  */
  function ForwardPadding(data: Matrix, expected: int, width: nat): (r: Result<Matrix>)
    ensures r.Ok? <==> expected >= 0
    ensures r.Ok? ==> |r.value| == expected
    ensures r.Ok? ==> forall j :: 0 <= j < |data| && j < expected ==> r.value[j] == data[j]
    ensures r.Ok? ==> forall j :: |data| <= j < expected ==> r.value[j] == ZeroRow(width)
  {
    if expected < 0 then Err(RuntimeError(NegativePadMessage))
    else if expected <= |data| then Ok(data[..expected])
    else Ok(data + seq(expected - |data|, _ => ZeroRow(width)))
  }

  /** The padded rows are all-zero and keep the line's width. */
  lemma ForwardPaddingKeepsWidth(data: Matrix, expected: nat, width: nat)
    requires HasWidth(data, width)
    ensures ForwardPadding(data, expected, width).Ok?
    ensures HasWidth(ForwardPadding(data, expected, width).value, width)
  {
    var r := ForwardPadding(data, expected, width).value;
    forall j | 0 <= j < |r|
      ensures |r[j]| == width
    {
      if j < |data| {
        assert r[j] == data[j];
      } else {
        assert r[j] == ZeroRow(width);
      }
    }
  }

  /** Every line has the same number of rows, as `torch.stack` demands. */
  predicate SameLength(lines: seq<Matrix>)
  {
    forall i, j :: 0 <= i < |lines| && 0 <= j < |lines| ==> |lines[i]| == |lines[j]|
  }

  /** Every row of every line has the same width: the lines share their last dimension. */
  predicate SameRowWidth(lines: seq<Matrix>)
  {
    forall i, r, k, q :: 0 <= i < |lines| && 0 <= r < |lines[i]| && 0 <= k < |lines| && 0 <= q < |lines[k]| ==>
      |lines[i][r]| == |lines[k][q]|
  }

  /**
    `torch.stack` of a list of 2-D tensors: an empty list, or tensors whose
    shapes differ in either dimension, are runtime errors.
  */
  function Stack(lines: seq<Matrix>): (r: Result<seq<Matrix>>)
    ensures r.Ok? <==> |lines| > 0 && SameLength(lines) && SameRowWidth(lines)
    ensures r.Ok? ==> r.value == lines
  {
    if |lines| == 0 then Err(RuntimeError(EmptyStackMessage))
    else if exists i :: 0 <= i < |lines| && |lines[i]| != |lines[0]| then
      Err(RuntimeError(UnequalStackMessage))
    else if |lines[0]| > 0 && exists i, q :: 0 <= i < |lines| && 0 <= q < |lines[i]| && |lines[i][q]| != |lines[0][0]| then
      Err(RuntimeError(UnequalStackMessage))
    else Ok(lines)
  }

  /** Every line padded (or cropped) to `padLength` rows with zero rows of `width` entries. */
  function PadLines(data: seq<Matrix>, padLength: nat, width: nat): (lines: seq<Matrix>)
    ensures |lines| == |data|
    ensures forall i :: 0 <= i < |data| ==> (|lines[i]| == padLength &&
      (forall j :: 0 <= j < padLength ==>
        lines[i][j] == if j < |data[i]| then data[i][j] else ZeroRow(width)))
  {
    seq(|data|, i requires 0 <= i < |data| => ForwardPadding(data[i], padLength, width).value)
  }

  /**
    Padding every line to `padLength` rows when `padFirst` holds, then stacking
    the lines into one `[nb lines, length, width]` tensor.
  */
  function PadAndStackBatch(data: seq<Matrix>, padFirst: bool, padLength: int, width: nat): (r: Result<seq<Matrix>>)
    ensures r.Ok? <==> (|data| > 0 &&
      (if padFirst then padLength >= 0 && SameRowWidth(PadLines(data, padLength, width))
       else SameLength(data) && SameRowWidth(data)))
    ensures r.Ok? ==> |r.value| == |data|
    ensures r.Ok? && padFirst ==> forall i :: 0 <= i < |data| ==>
      |r.value[i]| == padLength &&
      (forall j :: 0 <= j < padLength ==>
        r.value[i][j] == if j < |data[i]| then data[i][j] else ZeroRow(width))
    ensures r.Ok? && !padFirst ==> r.value == data
  {
    if padFirst && padLength < 0 then
      if |data| > 0 then Err(RuntimeError(NegativePadMessage)) else Stack([])
    else
      var lines := if padFirst then PadLines(data, padLength, width) else data;
      Stack(lines)
  }

  /** A batch whose lines all have `width` columns always pads and stacks to a non-negative length. */
  lemma PadAndStackBatchOfOneWidth(data: seq<Matrix>, padLength: nat, width: nat)
    requires |data| > 0
    requires forall i :: 0 <= i < |data| ==> HasWidth(data[i], width)
    ensures PadAndStackBatch(data, true, padLength, width).Ok?
  {
    var lines := PadLines(data, padLength, width);
    forall i, r | 0 <= i < |lines| && 0 <= r < |lines[i]|
      ensures |lines[i][r]| == width
    {
      if r < |data[i]| {
        assert lines[i][r] == data[i][r];
      } else {
        assert lines[i][r] == ZeroRow(width);
      }
    }
  }

  // ------------------------------------------------------------ masks

  /** An entry of torch's float square-subsequent mask. */
  datatype MaskValue = NegInf | Zero

  /** torch's `generate_square_subsequent_mask(n)`: minus infinity above the diagonal, zero elsewhere. */
  function SquareSubsequentMask(n: nat): (m: seq<seq<MaskValue>>)
    ensures |m| == n
    ensures forall i :: 0 <= i < n ==> |m[i]| == n
  {
    seq(n, i => seq(n, j => if j > i then NegInf else Zero))
  }

  /** The boolean future mask `mask < 0`: position `i` may not attend to `j`. */
  function FutureMask(n: nat): (m: seq<seq<bool>>)
    ensures |m| == n
    ensures forall i :: 0 <= i < n ==> |m[i]| == n
    ensures forall i, j :: 0 <= i < n && 0 <= j < n ==> (m[i][j] <==> j > i)
  {
    var f := SquareSubsequentMask(n);
    seq(n, i requires 0 <= i < n => seq(n, j requires 0 <= j < n => f[i][j] == NegInf))
  }

  /** The future mask of three positions is the one the mask documentation displays. */
  lemma FutureMaskExample()
    ensures FutureMask(3) == [[false, true, true], [false, false, true], [false, false, false]]
  {
    var m := FutureMask(3);
    assert m[0] == [false, true, true];
    assert m[1] == [false, false, true];
    assert m[2] == [false, false, false];
  }

  /** Each position sees itself and every earlier position: row `i` leaves exactly `i + 1` entries unmasked. */
  lemma FutureMaskRowVisible(n: nat, i: nat)
    requires i < n
    ensures FutureMask(n)[i][..i + 1] == seq(i + 1, _ => false)
    ensures FutureMask(n)[i][i + 1..] == seq(n - i - 1, _ => true)
  {
  }

  /**
    The padding mask: an all-false `[nb lines, batchMaxLen]` table in which
    row `i` is set to true from column `lengths[i]` onwards.
  */
  method GeneratePaddingMask(lengths: seq<nat>, batchMaxLen: nat) returns (mask: seq<seq<bool>>)
    ensures |mask| == |lengths|
    ensures forall i :: 0 <= i < |lengths| ==> |mask[i]| == batchMaxLen
    ensures forall i, j :: 0 <= i < |lengths| && 0 <= j < batchMaxLen ==>
      (mask[i][j] <==> j >= lengths[i])
  {
    mask := [];
    var i := 0;
    while i < |lengths|
      invariant 0 <= i <= |lengths|
      invariant |mask| == i
      invariant forall k :: 0 <= k < i ==> |mask[k]| == batchMaxLen
      invariant forall k, j :: 0 <= k < i && 0 <= j < batchMaxLen ==> (mask[k][j] <==> j >= lengths[k])
    {
      var row := seq(batchMaxLen, _ => false);
      var j := lengths[i];
      while j < batchMaxLen
        invariant |row| == batchMaxLen
        invariant forall c :: 0 <= c < batchMaxLen ==> (row[c] <==> lengths[i] <= c < j)
      {
        row := row[j := true];
        j := j + 1;
      }
      mask := mask + [row];
      i := i + 1;
    }
  }

  /**
    The padding mask marks exactly the rows padding added: a masked position
    holds a zero row, an unmasked one the line's own row.
  */
  lemma PaddingMaskMarksPaddedRows(data: seq<Matrix>, batchMaxLen: nat, width: nat, mask: seq<seq<bool>>)
    requires |data| > 0
    requires forall i :: 0 <= i < |data| ==> HasWidth(data[i], width)
    requires |mask| == |data|
    requires forall i :: 0 <= i < |data| ==> |mask[i]| == batchMaxLen
    requires forall i, j :: 0 <= i < |data| && 0 <= j < batchMaxLen ==> (mask[i][j] <==> j >= |data[i]|)
    ensures PadAndStackBatch(data, true, batchMaxLen, width).Ok?
    ensures forall i, j :: 0 <= i < |data| && 0 <= j < batchMaxLen ==>
      (mask[i][j] ==> PadAndStackBatch(data, true, batchMaxLen, width).value[i][j] == ZeroRow(width)) &&
      (!mask[i][j] ==> PadAndStackBatch(data, true, batchMaxLen, width).value[i][j] == data[i][j])
  {
    PadAndStackBatchOfOneWidth(data, batchMaxLen, width);
  }

  // ------------------------------------------------------------ forward: checks

  /** The four contexts a model can be set to. */
  datatype Context = Training | Validation | Tracking | Visu

  function ContextName(c: Context): string
  {
    match c
    case Training => "training"
    case Validation => "validation"
    case Tracking => "tracking"
    case Visu => "visu"
  }

  /** `set_context`: only the four known names are accepted. */
  function SetContext(name: string): (r: Result<Context>)
    ensures r.Ok? <==> name in {"training", "validation", "tracking", "visu"}
    ensures r.Ok? ==> ContextName(r.value) == name
    ensures r.Err? ==> r.error.AssertionError?
  {
    if name == "training" then Ok(Training)
    else if name == "validation" then Ok(Validation)
    else if name == "tracking" then Ok(Tracking)
    else if name == "visu" then Ok(Visu)
    else Err(AssertionError(UnknownContextMessage))
  }

  /** Every context name is accepted and names its context back. */
  lemma ContextNamesRoundTrip(c: Context)
    ensures SetContext(ContextName(c)) == Ok(c)
  {
  }

  /** The length assertion over `zip(inputs, streamlines)`, which stops at the shorter list. */
  predicate ZipLengthsAgree(inputLengths: seq<nat>, streamlineLengths: seq<nat>)
  {
    forall i :: 0 <= i < |inputLengths| && i < |streamlineLengths| ==> inputLengths[i] == streamlineLengths[i]
  }

  /** The largest element of a non-empty sequence. */
  function MaxOf(xs: seq<nat>): (m: nat)
    requires |xs| > 0
    ensures m in xs
    ensures forall i :: 0 <= i < |xs| ==> xs[i] <= m
  {
    if |xs| == 1 then xs[0]
    else
      var rest := MaxOf(xs[1..]);
      assert forall i :: 1 <= i < |xs| ==> xs[i] == xs[1..][i - 1];
      if xs[0] >= rest then xs[0] else rest
  }

  /** What `forward` decides before running the layers. */
  datatype Plan = Plan(context: Context, lengths: seq<nat>, usePadding: bool, batchMaxLen: nat)

  /** All elements are equal. */
  predicate AllEqual(xs: seq<nat>)
  {
    forall i, j :: 0 <= i < |xs| && 0 <= j < |xs| ==> xs[i] == xs[j]
  }

  /**
    The checks and decisions `forward` makes from the lengths of its inputs,
    in the source's order: the context must be set, every input must have its
    streamline's length, no line may exceed `maxLen`, and reading the first
    length of an empty batch fails. Padding is skipped when all lengths agree.
  */
  function CheckForward(context: Option<Context>, inputLengths: seq<nat>, streamlineLengths: seq<nat>, maxLen: int): (r: Result<Plan>)
    ensures r.Ok? <==>
      context.Some? && ZipLengthsAgree(inputLengths, streamlineLengths) &&
      (forall i :: 0 <= i < |inputLengths| ==> inputLengths[i] <= maxLen) && |inputLengths| > 0
    ensures context.None? ==> r.Err? && r.error.ValueError?
    ensures context.Some? && !ZipLengthsAgree(inputLengths, streamlineLengths) ==> r.Err? && r.error.AssertionError?
    ensures (context.Some? && ZipLengthsAgree(inputLengths, streamlineLengths) &&
             exists i :: 0 <= i < |inputLengths| && inputLengths[i] > maxLen) ==>
      r.Err? && r.error.ValueError?
    ensures context.Some? && ZipLengthsAgree(inputLengths, streamlineLengths) && |inputLengths| == 0 ==> r == Err(IndexError)
    ensures r.Ok? ==> r.value.context == context.value && r.value.lengths == inputLengths
    ensures r.Ok? ==> (r.value.usePadding <==> !AllEqual(inputLengths))
    ensures r.Ok? ==> r.value.batchMaxLen in inputLengths
    ensures r.Ok? ==> forall i :: 0 <= i < |inputLengths| ==> inputLengths[i] <= r.value.batchMaxLen
    ensures r.Ok? ==> r.value.batchMaxLen <= maxLen
  {
    if context.None? then Err(ValueError(NoContextMessage))
    else if !ZipLengthsAgree(inputLengths, streamlineLengths) then Err(AssertionError(LengthMismatchMessage))
    else if exists i :: 0 <= i < |inputLengths| && inputLengths[i] > maxLen then
      Err(ValueError(TooLongMessage))
    else if |inputLengths| == 0 then Err(IndexError)
    else
      var usePadding := exists i :: 0 <= i < |inputLengths| && inputLengths[i] != inputLengths[0];
      Ok(Plan(context.value, inputLengths, usePadding, MaxOf(inputLengths)))
  }

  /** Without padding every line already has the batch's maximal length. */
  lemma UnpaddedLinesHaveMaxLength(plan: Plan, i: nat)
    requires |plan.lengths| > 0
    requires !plan.usePadding <==> AllEqual(plan.lengths)
    requires plan.batchMaxLen in plan.lengths
    requires !plan.usePadding
    requires i < |plan.lengths|
    ensures plan.lengths[i] == plan.batchMaxLen
  {
    var k :| 0 <= k < |plan.lengths| && plan.lengths[k] == plan.batchMaxLen;
    assert plan.lengths[i] == plan.lengths[k];
  }

  // ------------------------------------------------------------ forward: outputs

  /** Python indexing of a dimension of size `n`; a negative index counts from the end. */
  function PyIndex(k: int, n: nat): (r: Result<nat>)
    ensures r.Ok? <==> -(n as int) <= k < n
    ensures r.Ok? ==> r.value < n
    ensures r.Ok? && k >= 0 ==> r.value == k
    ensures r.Ok? && k < 0 ==> r.value == n + k
  {
    if 0 <= k < n then Ok(k) else if -(n as int) <= k < 0 then Ok(n + k) else Err(IndexError)
  }

  /** The layers' output has one `[batchMaxLen, width]` block per line. */
  predicate OutputShape(plan: Plan, outputs: seq<Matrix>)
  {
    |outputs| == |plan.lengths| &&
    forall i :: 0 <= i < |outputs| ==> |outputs[i]| == plan.batchMaxLen
  }

  /**
    The tracking context keeps one row per line: with padding, row
    `lengths[i] - 1` of line `i`; without it, row `-1` of every line.
  */
  function SelectLastOutputs(plan: Plan, outputs: seq<Matrix>): (r: Result<Matrix>)
    requires OutputShape(plan, outputs)
    ensures r.Ok? ==> |r.value| == |outputs|
  {
    if plan.usePadding then
      if forall i :: 0 <= i < |outputs| ==> PyIndex(plan.lengths[i] as int - 1, plan.batchMaxLen).Ok? then
        Ok(seq(|outputs|, i requires 0 <= i < |outputs| => outputs[i][PyIndex(plan.lengths[i] as int - 1, plan.batchMaxLen).value]))
      else Err(IndexError)
    else
      if plan.batchMaxLen == 0 then Err(IndexError)
      else Ok(seq(|outputs|, i requires 0 <= i < |outputs| => outputs[i][plan.batchMaxLen - 1]))
  }

  /**
    Whichever branch is taken, the tracking selection returns exactly the last
    valid output of each line, one row per streamline.
  */
  lemma TrackingSelectsLastValidPoint(context: Context, inputLengths: seq<nat>, streamlineLengths: seq<nat>,
                                      maxLen: int, outputs: seq<Matrix>)
    requires CheckForward(Some(context), inputLengths, streamlineLengths, maxLen).Ok?
    requires forall i :: 0 <= i < |inputLengths| ==> inputLengths[i] > 0
    requires OutputShape(CheckForward(Some(context), inputLengths, streamlineLengths, maxLen).value, outputs)
    ensures SelectLastOutputs(CheckForward(Some(context), inputLengths, streamlineLengths, maxLen).value, outputs)
      == Ok(seq(|outputs|, i requires 0 <= i < |outputs| && i < |inputLengths| => outputs[i][inputLengths[i] - 1]))
  {
    var plan := CheckForward(Some(context), inputLengths, streamlineLengths, maxLen).value;
    var expected := seq(|outputs|, i requires 0 <= i < |outputs| && i < |inputLengths| => outputs[i][inputLengths[i] - 1]);
    if !plan.usePadding {
      forall i | 0 <= i < |outputs|
        ensures inputLengths[i] == plan.batchMaxLen
      {
        UnpaddedLinesHaveMaxLength(plan, i);
      }
      assert plan.batchMaxLen > 0 by {
        assert inputLengths[0] == plan.batchMaxLen;
      }
    } else {
      forall i | 0 <= i < |outputs|
        ensures PyIndex(plan.lengths[i] as int - 1, plan.batchMaxLen) == Ok(inputLengths[i] - 1)
      {
      }
    }
    var r := SelectLastOutputs(plan, outputs);
    assert r.Ok?;
    assert forall i :: 0 <= i < |outputs| ==> r.value[i] == expected[i];
    assert r.value == expected;
  }

  /** With padding, a line of length zero reads row `-1`: the last padded row, not a point of the line. */
  lemma EmptyLineReadsLastPaddedRow(plan: Plan, outputs: seq<Matrix>, i: nat)
    requires OutputShape(plan, outputs)
    requires plan.usePadding && plan.batchMaxLen > 0
    requires forall k :: 0 <= k < |outputs| ==> plan.lengths[k] <= plan.batchMaxLen
    requires i < |outputs| && plan.lengths[i] == 0
    ensures SelectLastOutputs(plan, outputs).Ok?
    ensures SelectLastOutputs(plan, outputs).value[i] == outputs[i][plan.batchMaxLen - 1]
  {
  }

  /** The first `n` rows, clamped as a Python slice `[0:n]` is. */
  function Take(m: Matrix, n: nat): (r: Matrix)
    ensures |r| == if n <= |m| then n else |m|
    ensures forall j :: 0 <= j < |r| ==> r[j] == m[j]
  {
    if n <= |m| then m[..n] else m
  }

  /** Unpadding: line `i` keeps its first `lengths[i]` rows. */
  function Unpad(outputs: seq<Matrix>, lengths: seq<nat>): (blocks: seq<Matrix>)
    requires |outputs| == |lengths|
    ensures |blocks| == |outputs|
    ensures forall i :: 0 <= i < |outputs| && lengths[i] <= |outputs[i]| ==> |blocks[i]| == lengths[i]
  {
    seq(|outputs|, i requires 0 <= i < |outputs| => Take(outputs[i], lengths[i]))
  }

  /** Concatenation of blocks of rows along the first dimension. */
  function VStack(blocks: seq<Matrix>): (m: Matrix)
    ensures |m| == TotalRows(blocks)
  {
    if |blocks| == 0 then [] else blocks[0] + VStack(blocks[1..])
  }

  function TotalRows(blocks: seq<Matrix>): nat
  {
    if |blocks| == 0 then 0 else |blocks[0]| + TotalRows(blocks[1..])
  }

  /** `torch.vstack`, which refuses an empty list. */
  function VStackChecked(blocks: seq<Matrix>): (r: Result<Matrix>)
    ensures r.Ok? <==> |blocks| > 0
    ensures r.Ok? ==> r.value == VStack(blocks)
  {
    if |blocks| == 0 then Err(RuntimeError(EmptyVStackMessage)) else Ok(VStack(blocks))
  }

  function Sum(xs: seq<nat>): nat
  {
    if |xs| == 0 then 0 else xs[0] + Sum(xs[1..])
  }

  /** The number of rows of each block. */
  function Lengths(blocks: seq<Matrix>): (ls: seq<nat>)
    ensures |ls| == |blocks|
    ensures forall i :: 0 <= i < |blocks| ==> ls[i] == |blocks[i]|
  {
    seq(|blocks|, i requires 0 <= i < |blocks| => |blocks[i]|)
  }

  lemma {:induction false} TotalRowsIsSum(blocks: seq<Matrix>)
    ensures TotalRows(blocks) == Sum(Lengths(blocks))
    decreases |blocks|
  {
    if |blocks| > 0 {
      assert Lengths(blocks)[1..] == Lengths(blocks[1..]);
      TotalRowsIsSum(blocks[1..]);
    }
  }

  /** Row `j` of block `i` sits after all rows of the blocks before it. */
  lemma {:induction false} VStackIndex(blocks: seq<Matrix>, i: nat, j: nat)
    requires i < |blocks| && j < |blocks[i]|
    ensures TotalRows(blocks[..i]) + j < |VStack(blocks)|
    ensures VStack(blocks)[TotalRows(blocks[..i]) + j] == blocks[i][j]
    decreases i
  {
    if i > 0 {
      var rest := blocks[1..];
      assert blocks[..i][1..] == rest[..i - 1];
      VStackIndex(rest, i - 1, j);
      TotalRowsPrefix(blocks, i);
    }
  }

  lemma TotalRowsPrefix(blocks: seq<Matrix>, i: nat)
    requires 0 < i <= |blocks|
    ensures TotalRows(blocks[..i]) == |blocks[0]| + TotalRows(blocks[1..][..i - 1])
    ensures TotalRows(blocks[..i]) + TotalRows(blocks[i..]) == TotalRows(blocks)
  {
    assert blocks[..i][1..] == blocks[1..][..i - 1];
    TotalRowsSplit(blocks, i);
  }

  lemma {:induction false} TotalRowsSplit(blocks: seq<Matrix>, i: nat)
    requires i <= |blocks|
    ensures TotalRows(blocks[..i]) + TotalRows(blocks[i..]) == TotalRows(blocks)
    decreases i
  {
    if i > 0 {
      assert blocks[..i][1..] == blocks[1..][..i - 1];
      assert blocks[i..] == blocks[1..][i - 1..];
      TotalRowsSplit(blocks[1..], i - 1);
    } else {
      assert blocks[i..] == blocks;
    }
  }

  /**
    `torch.split(m, sizes)`: consecutive blocks of the given sizes. The sizes
    must add up to the number of rows.
  */
  function Split(m: Matrix, sizes: seq<nat>): (r: Result<seq<Matrix>>)
    ensures r.Ok? <==> Sum(sizes) == |m|
    ensures r.Ok? ==> Lengths(r.value) == sizes
    ensures r.Ok? ==> VStack(r.value) == m
    ensures r.Err? ==> r.error.RuntimeError?
    decreases |sizes|
  {
    if |sizes| == 0 then
      if |m| == 0 then Ok([]) else Err(RuntimeError(SplitSizesMessage))
    else if sizes[0] > |m| then
      SumBelowFirst(sizes, |m|);
      Err(RuntimeError(SplitSizesMessage))
    else
      var rest := Split(m[sizes[0]..], sizes[1..]);
      if rest.Err? then Err(rest.error)
      else
        var blocks := [m[..sizes[0]]] + rest.value;
        assert blocks[1..] == rest.value;
        assert Lengths(blocks) == sizes by {
          assert Lengths(blocks)[0] == sizes[0];
          assert Lengths(blocks)[1..] == Lengths(rest.value);
        }
        assert m == m[..sizes[0]] + m[sizes[0]..];
        Ok(blocks)
  }

  lemma SumBelowFirst(sizes: seq<nat>, n: nat)
    requires |sizes| > 0 && sizes[0] > n
    ensures Sum(sizes) != n
  {
  }

  /** Two splittings with the same stacked rows and the same block sizes are the same blocks. */
  lemma {:induction false} VStackInjective(a: seq<Matrix>, b: seq<Matrix>)
    requires Lengths(a) == Lengths(b)
    requires VStack(a) == VStack(b)
    ensures a == b
    decreases |a|
  {
    if |a| > 0 {
      assert |a[0]| == |b[0]|;
      assert a[0] == VStack(a)[..|a[0]|];
      assert b[0] == VStack(b)[..|b[0]|];
      assert VStack(a[1..]) == VStack(a)[|a[0]|..];
      assert VStack(b[1..]) == VStack(b)[|b[0]|..];
      assert Lengths(a[1..]) == Lengths(a)[1..];
      assert Lengths(b[1..]) == Lengths(b)[1..];
      VStackInjective(a[1..], b[1..]);
      assert a == [a[0]] + a[1..];
      assert b == [b[0]] + b[1..];
    }
  }

  /** Splitting the stacked blocks by their own sizes gives the blocks back. */
  lemma SplitVStack(blocks: seq<Matrix>)
    ensures Split(VStack(blocks), Lengths(blocks)) == Ok(blocks)
  {
    TotalRowsIsSum(blocks);
    var r := Split(VStack(blocks), Lengths(blocks));
    VStackInjective(r.value, blocks);
  }

  /** The row-wise head applied to every row. */
  function MapRows(head: Row -> Row, m: Matrix): (r: Matrix)
    ensures |r| == |m|
    ensures forall j :: 0 <= j < |m| ==> r[j] == head(m[j])
  {
    seq(|m|, j requires 0 <= j < |m| => head(m[j]))
  }

  /** Applying a row-wise head commutes with stacking. */
  lemma {:induction false} MapRowsVStack(head: Row -> Row, blocks: seq<Matrix>)
    ensures MapRows(head, VStack(blocks)) == VStack(seq(|blocks|, i requires 0 <= i < |blocks| => MapRows(head, blocks[i])))
    decreases |blocks|
  {
    var mapped := seq(|blocks|, i requires 0 <= i < |blocks| => MapRows(head, blocks[i]));
    if |blocks| > 0 {
      MapRowsVStack(head, blocks[1..]);
      assert mapped[1..] == seq(|blocks[1..]|, i requires 0 <= i < |blocks[1..]| => MapRows(head, blocks[1..][i]));
      assert MapRows(head, VStack(blocks)) == MapRows(head, blocks[0]) + MapRows(head, VStack(blocks[1..]));
    }
  }

  /** Row-by-row sum of two matrices with the same number of rows. */
  function AddRows(a: Matrix, b: Matrix): (r: Matrix)
    requires |a| == |b|
    ensures |r| == |a|
    ensures forall j :: 0 <= j < |a| ==> r[j] == AddRow(a[j], b[j])
  {
    seq(|a|, j requires 0 <= j < |a| => AddRow(a[j], b[j]))
  }

  /**
    Broadcast addition of two `[rows, width]` tensors of the same width: the
    row counts must agree or one of them must be 1.
  */
  function AddMatrices(a: Matrix, b: Matrix, width: nat): (r: Result<Matrix>)
    requires HasWidth(a, width) && HasWidth(b, width)
    ensures r.Ok? <==> |a| == |b| || |a| == 1 || |b| == 1
    ensures |a| == |b| ==> r == Ok(AddRows(a, b))
    ensures r.Ok? ==> HasWidth(r.value, width)
  {
    if |a| == |b| then Ok(AddRows(a, b))
    else if |a| == 1 then Ok(seq(|b|, j requires 0 <= j < |b| => AddRow(a[0], b[j])))
    else if |b| == 1 then Ok(seq(|a|, j requires 0 <= j < |a| => AddRow(a[j], b[0])))
    else Err(RuntimeError(BroadcastMessage))
  }

  /** What `forward` returns: one row per line in tracking, one block per line otherwise. */
  datatype Outputs = LastPoints(rows: Matrix) | PerStreamline(blocks: seq<Matrix>)

  /**
    The part of `forward` after the layers: select or unpad the outputs, run
    the head, add the copied previous directions when that option is on and,
    outside tracking, split the rows back per line.
  */
  function ForwardOutputs(plan: Plan, outputs: seq<Matrix>, head: Row -> Row, width: nat,
                          copyPrev: Option<Matrix>): (r: Result<Outputs>)
    requires OutputShape(plan, outputs)
    requires forall row: Row :: |head(row)| == width
    requires copyPrev.Some? ==> HasWidth(copyPrev.value, width)
    ensures r.Ok? && plan.context == Tracking ==> r.value.LastPoints?
    ensures r.Ok? && plan.context != Tracking ==> r.value.PerStreamline? && Lengths(r.value.blocks) == plan.lengths
  {
    var selected :=
      if plan.context == Tracking then SelectLastOutputs(plan, outputs)
      else VStackChecked(Unpad(outputs, plan.lengths));
    if selected.Err? then Err(selected.error)
    else
      var rows := MapRows(head, selected.value);
      var added := if copyPrev.Some? then AddMatrices(copyPrev.value, rows, width) else Ok(rows);
      if added.Err? then Err(added.error)
      else if plan.context == Tracking then Ok(LastPoints(added.value))
      else
        var blocks := Split(added.value, plan.lengths);
        if blocks.Err? then Err(blocks.error) else Ok(PerStreamline(blocks.value))
  }

  /**
    Outside tracking, without the copy option, `forward` returns per line
    exactly the head applied to that line's unpadded rows: the unpad, stack
    and split steps cancel out.
  */
  lemma NonTrackingForwardRoundTrip(plan: Plan, outputs: seq<Matrix>, head: Row -> Row, width: nat)
    requires OutputShape(plan, outputs) && |outputs| > 0
    requires plan.context != Tracking
    requires forall i :: 0 <= i < |plan.lengths| ==> plan.lengths[i] <= plan.batchMaxLen
    requires forall row: Row :: |head(row)| == width
    ensures ForwardOutputs(plan, outputs, head, width, None) ==
      Ok(PerStreamline(seq(|outputs|, i requires 0 <= i < |outputs| => MapRows(head, outputs[i][..plan.lengths[i]]))))
  {
    var blocks := Unpad(outputs, plan.lengths);
    var mapped := seq(|blocks|, i requires 0 <= i < |blocks| => MapRows(head, blocks[i]));
    MapRowsVStack(head, blocks);
    assert Lengths(mapped) == plan.lengths;
    SplitVStack(mapped);
    assert mapped == seq(|outputs|, i requires 0 <= i < |outputs| => MapRows(head, outputs[i][..plan.lengths[i]]));
  }

  /** In tracking, without the copy option, `forward` returns the head applied to each line's last valid output. */
  lemma TrackingForwardLastPoints(context: Context, inputLengths: seq<nat>, streamlineLengths: seq<nat>,
                                  maxLen: int, outputs: seq<Matrix>, head: Row -> Row, width: nat)
    requires context == Tracking
    requires CheckForward(Some(context), inputLengths, streamlineLengths, maxLen).Ok?
    requires forall i :: 0 <= i < |inputLengths| ==> inputLengths[i] > 0
    requires OutputShape(CheckForward(Some(context), inputLengths, streamlineLengths, maxLen).value, outputs)
    requires forall row: Row :: |head(row)| == width
    ensures ForwardOutputs(CheckForward(Some(context), inputLengths, streamlineLengths, maxLen).value,
                           outputs, head, width, None)
      == Ok(LastPoints(seq(|outputs|, i requires 0 <= i < |outputs| && i < |inputLengths| => head(outputs[i][inputLengths[i] - 1]))))
  {
    var plan := CheckForward(Some(context), inputLengths, streamlineLengths, maxLen).value;
    TrackingSelectsLastValidPoint(context, inputLengths, streamlineLengths, maxLen, outputs);
    var selected := SelectLastOutputs(plan, outputs).value;
    var expected := seq(|outputs|, i requires 0 <= i < |outputs| && i < |inputLengths| => head(outputs[i][inputLengths[i] - 1]));
    assert MapRows(head, selected) == expected;
  }

  // ------------------------------------------------------------ copy previous direction

  /** Prepending one zero row, as `pad(cp, [0, 0, 1, 0])` does. */
  function PrependZero(m: Matrix, width: nat): (r: Matrix)
    ensures |r| == |m| + 1
    ensures r[0] == ZeroRow(width) && r[1..] == m
  {
    [ZeroRow(width)] + m
  }

  function ScaleRows(c: real, m: Matrix): (r: Matrix)
    ensures |r| == |m|
    ensures forall j :: 0 <= j < |m| ==> r[j] == ScaleRow(c, m[j])
  {
    seq(|m|, j requires 0 <= j < |m| => ScaleRow(c, m[j]))
  }

  /** The skip-connection factor applied to the copied directions. */
  const CopyPrevFactor: real := 6.0

  /**
    `copy_prev_dir`: per line, the previous directions (regression) or their
    one-hot classes (sphere classification), shifted by one zero row at the
    front, stacked and multiplied by 6. Every other family raises
    NotImplementedError. The one-hot conversion goes through the direction
    getter's `torch_sphere` attribute; `torchSphere` is that conversion, or
    None when the getter has no such attribute, which is the case of the
    sphere-classification getter of `direction_getter_models.py` (it keeps
    only `sphere` and `vertices`), so there the call raises AttributeError.
  */
  function CopyPrevDir(family: DirectionGetters.Family, dirs: seq<Matrix>,
                       torchSphere: Option<seq<Matrix> -> seq<Matrix>>, width: nat): (r: Result<Matrix>)
    ensures r.Ok? <==> ((family.CosineRegression? || family.L2Regression?) && |dirs| > 0) ||
                       (family.SphereClassification? && torchSphere.Some? && |torchSphere.value(dirs)| > 0)
    ensures !(family.CosineRegression? || family.L2Regression? || family.SphereClassification?) ==>
      r.Err? && r.error.NotImplementedError?
    ensures family.SphereClassification? && torchSphere.None? ==> r == Err(AttributeError("torch_sphere"))
    ensures (r.Ok? && (family.CosineRegression? || family.L2Regression?) &&
             (forall i :: 0 <= i < |dirs| ==> HasWidth(dirs[i], width))) ==> HasWidth(r.value, width)
  {
    var copied :=
      if family.CosineRegression? || family.L2Regression? then Ok(dirs)
      else if family.SphereClassification? then
        (if torchSphere.Some? then Ok(torchSphere.value(dirs)) else Err(AttributeError("torch_sphere")))
      else Err(NotImplementedError("copy_prev_dir"));
    if copied.Err? then Err(copied.error)
    else
      var padded := seq(|copied.value|, i requires 0 <= i < |copied.value| => PrependZero(copied.value[i], width));
      var stacked := VStackChecked(padded);
      if stacked.Err? then Err(stacked.error)
      else
        assert (forall i :: 0 <= i < |copied.value| ==> HasWidth(copied.value[i], width)) ==>
               HasWidth(stacked.value, width) by {
          if forall i :: 0 <= i < |copied.value| ==> HasWidth(copied.value[i], width) {
            StackWidth(padded, width);
          }
        }
        Ok(ScaleRows(CopyPrevFactor, stacked.value))
  }

  /** A stack of blocks of one width has that width. */
  lemma {:induction false} StackWidth(blocks: seq<Matrix>, width: nat)
    requires forall i :: 0 <= i < |blocks| ==> HasWidth(blocks[i], width)
    ensures HasWidth(VStack(blocks), width)
    decreases |blocks|
  {
    if |blocks| > 0 {
      StackWidth(blocks[1..], width);
      var rest := VStack(blocks[1..]);
      assert VStack(blocks) == blocks[0] + rest;
      forall j | 0 <= j < |VStack(blocks)|
        ensures |VStack(blocks)[j]| == width
      {
        if j >= |blocks[0]| {
          assert VStack(blocks)[j] == rest[j - |blocks[0]|];
        }
      }
    }
  }

  /**
    The layout of the copied directions for a regression head: line `i`
    occupies `|dirs[i]| + 1` rows starting after the rows of the lines before
    it; its first row is zero and row `1 + j` is six times direction `j`.
  */
  lemma CopyPrevDirLayout(family: DirectionGetters.Family, dirs: seq<Matrix>,
                          torchSphere: Option<seq<Matrix> -> seq<Matrix>>, width: nat, i: nat, j: nat)
    requires family.CosineRegression? || family.L2Regression?
    requires i < |dirs| && j < |dirs[i]|
    ensures CopyPrevDir(family, dirs, torchSphere, width).Ok?
    ensures var padded := seq(|dirs|, k requires 0 <= k < |dirs| => PrependZero(dirs[k], width));
      var start := TotalRows(padded[..i]);
      var r := CopyPrevDir(family, dirs, torchSphere, width).value;
      |r| == TotalRows(padded) && start + 1 + j < |r| &&
      r[start] == ScaleRow(CopyPrevFactor, ZeroRow(width)) &&
      r[start + 1 + j] == ScaleRow(CopyPrevFactor, dirs[i][j])
  {
    var padded := seq(|dirs|, k requires 0 <= k < |dirs| => PrependZero(dirs[k], width));
    VStackIndex(padded, i, 0);
    VStackIndex(padded, i, 1 + j);
  }

  /** The copied directions hold one more row per line than the line has directions. */
  lemma {:induction false} CopyPrevRowCount(dirs: seq<Matrix>, width: nat)
    ensures TotalRows(seq(|dirs|, k requires 0 <= k < |dirs| => PrependZero(dirs[k], width))) == TotalRows(dirs) + |dirs|
    decreases |dirs|
  {
    if |dirs| > 0 {
      var padded := seq(|dirs|, k requires 0 <= k < |dirs| => PrependZero(dirs[k], width));
      assert padded[1..] == seq(|dirs[1..]|, k requires 0 <= k < |dirs[1..]| => PrependZero(dirs[1..][k], width));
      CopyPrevRowCount(dirs[1..], width);
    }
  }

  // ------------------------------------------------------------ copied directions while tracking

  /**
    As `forward` is written, the tracking context adds the stacked copied
    directions, one row per point of every line, to the one output row per
    line: unless the row counts agree or one side has a single row, the
    addition cannot broadcast and `forward` raises.
  */
  lemma TrackingCopyPrevShapeClash(plan: Plan, outputs: seq<Matrix>, head: Row -> Row, width: nat, copyPrev: Matrix)
    requires OutputShape(plan, outputs)
    requires plan.context == Tracking
    requires SelectLastOutputs(plan, outputs).Ok?
    requires forall row: Row :: |head(row)| == width
    requires HasWidth(copyPrev, width)
    requires |copyPrev| != |outputs| && |copyPrev| != 1 && |outputs| != 1
    ensures ForwardOutputs(plan, outputs, head, width, Some(copyPrev)).Err?
    ensures ForwardOutputs(plan, outputs, head, width, Some(copyPrev)).error.RuntimeError?
  {
  }

  /**
    Two lines of three points each under an L2-regression head: each line has
    two directions, `copy_prev_dir` turns them into three rows per line, and
    the six copied rows meet the two selected output rows, so tracking fails.
  */
  lemma TwoLinesOfThreePointsClash()
    ensures var dirs: seq<Matrix> := seq(2, _ => seq(2, _ => [1.0, 0.0, 0.0]));
      var copied := CopyPrevDir(DirectionGetters.L2Regression, dirs, None, 3);
      var outputs := seq(2, _ => seq(3, _ => [0.0, 0.0, 0.0]));
      CheckForward(Some(Tracking), [3, 3], [3, 3], 3) == Ok(Plan(Tracking, [3, 3], false, 3)) &&
      copied.Ok? && |copied.value| == 6 &&
      ForwardOutputs(Plan(Tracking, [3, 3], false, 3), outputs, (row: Row) => [0.0, 0.0, 0.0], 3, Some(copied.value)).Err?
  {
    var dirs: seq<Matrix> := seq(2, _ => seq(2, _ => [1.0, 0.0, 0.0]));
    var outputs := seq(2, _ => seq(3, _ => [0.0, 0.0, 0.0]));
    assert MaxOf([3, 3]) == 3 by { assert [3, 3][1..] == [3]; }
    CopyPrevRowCount(dirs, 3);
    assert TotalRows(dirs) == 4 by {
      assert TotalRows(dirs[1..][1..]) == 0;
      assert TotalRows(dirs[1..]) == 2;
    }
    var copied := CopyPrevDir(DirectionGetters.L2Regression, dirs, None, 3).value;
    TrackingCopyPrevShapeClash(Plan(Tracking, [3, 3], false, 3), outputs, (row: Row) => [0.0, 0.0, 0.0], 3, copied);
  }

  /** The offset of block `i` in a stack is the sum of the lengths before it. */
  lemma OffsetIsPrefixSum(blocks: seq<Matrix>, i: nat)
    requires i <= |blocks|
    ensures TotalRows(blocks[..i]) == Sum(Lengths(blocks)[..i])
  {
    TotalRowsIsSum(blocks[..i]);
    assert Lengths(blocks[..i]) == Lengths(blocks)[..i];
  }

  /** Row `j` of block `i` is row `Sum(Lengths(blocks)[..i]) + j` of the stack. */
  lemma BlockRowIndex(blocks: seq<Matrix>, i: nat, j: nat)
    requires i < |blocks| && j < |blocks[i]|
    ensures Sum(Lengths(blocks)[..i]) + j < |VStack(blocks)|
    ensures VStack(blocks)[Sum(Lengths(blocks)[..i]) + j] == blocks[i][j]
  {
    VStackIndex(blocks, i, j);
    OffsetIsPrefixSum(blocks, i);
  }

  /** Every block of a stack of rows of one width has that width. */
  lemma {:induction false} VStackWidth(blocks: seq<Matrix>, width: nat)
    requires HasWidth(VStack(blocks), width)
    ensures forall i :: 0 <= i < |blocks| ==> HasWidth(blocks[i], width)
    decreases |blocks|
  {
    if |blocks| > 0 {
      var rest := VStack(blocks[1..]);
      assert VStack(blocks) == blocks[0] + rest;
      assert HasWidth(blocks[0], width) by {
        forall j | 0 <= j < |blocks[0]|
          ensures |blocks[0][j]| == width
        {
          assert blocks[0][j] == VStack(blocks)[j];
        }
      }
      assert HasWidth(rest, width) by {
        forall j | 0 <= j < |rest|
          ensures |rest[j]| == width
        {
          assert rest[j] == VStack(blocks)[|blocks[0]| + j];
        }
      }
      VStackWidth(blocks[1..], width);
      forall i | 0 <= i < |blocks|
        ensures HasWidth(blocks[i], width)
      {
        if i > 0 {
          assert blocks[i] == blocks[1..][i - 1];
        }
      }
    }
  }

  /** Adding two blocks of rows row by row, block by block. */
  function AddBlocks(a: seq<Matrix>, b: seq<Matrix>): (r: seq<Matrix>)
    requires Lengths(a) == Lengths(b)
    ensures Lengths(r) == Lengths(a)
  {
    seq(|a|, i requires 0 <= i < |a| => AddRows(a[i], b[i]))
  }

  lemma AddRowsConcat(p: Matrix, q: Matrix, r: Matrix, s: Matrix)
    requires |p| == |r| && |q| == |s|
    ensures AddRows(p + q, r + s) == AddRows(p, r) + AddRows(q, s)
  {
    assert forall j :: 0 <= j < |p| + |q| ==> AddRows(p + q, r + s)[j] == (AddRows(p, r) + AddRows(q, s))[j];
  }

  /** Adding row by row commutes with stacking: the sum of two stacks is the stack of the blockwise sums. */
  lemma {:induction false} VStackAddRows(a: seq<Matrix>, b: seq<Matrix>)
    requires Lengths(a) == Lengths(b)
    ensures |VStack(a)| == |VStack(b)|
    ensures VStack(AddBlocks(a, b)) == AddRows(VStack(a), VStack(b))
    decreases |a|
  {
    TotalRowsIsSum(a);
    TotalRowsIsSum(b);
    if |a| > 0 {
      assert Lengths(a[1..]) == Lengths(a)[1..];
      assert Lengths(b[1..]) == Lengths(b)[1..];
      VStackAddRows(a[1..], b[1..]);
      assert AddBlocks(a, b)[1..] == AddBlocks(a[1..], b[1..]);
      AddRowsConcat(a[0], VStack(a[1..]), b[0], VStack(b[1..]));
    }
  }

  /**
    Of the copied directions of each line, cut back per line by the same
    lengths, the one at the line's last valid position.
  */
  function LastCopiedRows(copyPrev: Matrix, lengths: seq<nat>): (r: Matrix)
    requires |copyPrev| == Sum(lengths)
    requires forall i :: 0 <= i < |lengths| ==> lengths[i] > 0
    ensures |r| == |lengths|
  {
    var copied := Split(copyPrev, lengths).value;
    seq(|lengths|, i requires 0 <= i < |lengths| => copied[i][lengths[i] - 1])
  }

  /** The row taken for line `i` is the stacked row of its last point, after the rows of the lines before it. */
  lemma LastCopiedRowIsStackedRow(copyPrev: Matrix, lengths: seq<nat>, i: nat)
    requires |copyPrev| == Sum(lengths)
    requires forall k :: 0 <= k < |lengths| ==> lengths[k] > 0
    requires i < |lengths|
    ensures Sum(lengths[..i]) + lengths[i] - 1 < |copyPrev|
    ensures LastCopiedRows(copyPrev, lengths)[i] == copyPrev[Sum(lengths[..i]) + lengths[i] - 1]
  {
    var copied := Split(copyPrev, lengths).value;
    assert Lengths(copied) == lengths && VStack(copied) == copyPrev;
    LastRowOfBlock(copied, copyPrev, lengths, i);
    assert LastCopiedRows(copyPrev, lengths)[i] == copied[i][lengths[i] - 1];
  }

  /** The last row of block `i` of a stack, addressed through the block sizes. */
  lemma LastRowOfBlock(blocks: seq<Matrix>, stacked: Matrix, lengths: seq<nat>, i: nat)
    requires Lengths(blocks) == lengths && VStack(blocks) == stacked
    requires i < |lengths| && lengths[i] > 0
    ensures Sum(lengths[..i]) + lengths[i] - 1 < |stacked|
    ensures stacked[Sum(lengths[..i]) + lengths[i] - 1] == blocks[i][lengths[i] - 1]
  {
    BlockRowIndex(blocks, i, lengths[i] - 1);
  }

  lemma LastCopiedRowsWidth(copyPrev: Matrix, lengths: seq<nat>, width: nat)
    requires |copyPrev| == Sum(lengths)
    requires forall i :: 0 <= i < |lengths| ==> lengths[i] > 0
    requires HasWidth(copyPrev, width)
    ensures HasWidth(LastCopiedRows(copyPrev, lengths), width)
  {
    var lastCopied := LastCopiedRows(copyPrev, lengths);
    forall i | 0 <= i < |lengths|
      ensures |lastCopied[i]| == width
    {
      LastCopiedRowWidth(copyPrev, lengths, width, i);
    }
  }

  /** The row taken for one line is a row of the stack, so it has the stack's width. */
  lemma LastCopiedRowWidth(copyPrev: Matrix, lengths: seq<nat>, width: nat, i: nat)
    requires |copyPrev| == Sum(lengths)
    requires forall k :: 0 <= k < |lengths| ==> lengths[k] > 0
    requires HasWidth(copyPrev, width)
    requires i < |lengths|
    ensures |LastCopiedRows(copyPrev, lengths)[i]| == width
  {
    LastCopiedRowIsStackedRow(copyPrev, lengths, i);
    var j := Sum(lengths[..i]) + lengths[i] - 1;
    assert |copyPrev[j]| == width;
  }

  /**
    The corrected tail of `forward`: while tracking, each line's output is
    added to the copied direction at that line's last valid position only.
  */
  function ForwardOutputsCorrected(plan: Plan, outputs: seq<Matrix>, head: Row -> Row, width: nat,
                                   copyPrev: Option<Matrix>): (r: Result<Outputs>)
    requires OutputShape(plan, outputs)
    requires forall row: Row :: |head(row)| == width
    requires copyPrev.Some? ==> HasWidth(copyPrev.value, width)
    ensures plan.context != Tracking ==> r == ForwardOutputs(plan, outputs, head, width, copyPrev)
    ensures copyPrev.None? ==> r == ForwardOutputs(plan, outputs, head, width, None)
  {
    if plan.context == Tracking && copyPrev.Some? && |copyPrev.value| == Sum(plan.lengths) &&
       (forall i :: 0 <= i < |plan.lengths| ==> plan.lengths[i] > 0) then
      var lastCopied := LastCopiedRows(copyPrev.value, plan.lengths);
      assert HasWidth(lastCopied, width) by {
        LastCopiedRowsWidth(copyPrev.value, plan.lengths, width);
      }
      ForwardOutputs(plan, outputs, head, width, Some(lastCopied))
    else ForwardOutputs(plan, outputs, head, width, copyPrev)
  }

  /**
    Outside tracking, with the copy option, line `i` gets the head's output
    for its valid points plus the copied directions cut back to that line.
  */
  lemma NonTrackingCopyPrevRows(plan: Plan, outputs: seq<Matrix>, head: Row -> Row, width: nat, copyPrev: Matrix)
    requires OutputShape(plan, outputs) && |outputs| > 0
    requires plan.context != Tracking
    requires forall i :: 0 <= i < |plan.lengths| ==> plan.lengths[i] <= plan.batchMaxLen
    requires forall row: Row :: |head(row)| == width
    requires HasWidth(copyPrev, width) && |copyPrev| == Sum(plan.lengths)
    ensures var v := ForwardOutputs(plan, outputs, head, width, Some(copyPrev));
      var copied := Split(copyPrev, plan.lengths).value;
      v.Ok? && v.value.PerStreamline? && |v.value.blocks| == |outputs| == |copied| &&
      forall i :: 0 <= i < |outputs| ==>
        |copied[i]| == plan.lengths[i] &&
        v.value.blocks[i] == AddRows(copied[i], MapRows(head, outputs[i][..plan.lengths[i]]))
  {
    var copied := Split(copyPrev, plan.lengths).value;
    var blocks := Unpad(outputs, plan.lengths);
    assert Lengths(blocks) == plan.lengths;
    var mapped := seq(|blocks|, i requires 0 <= i < |blocks| => MapRows(head, blocks[i]));
    MapRowsVStack(head, blocks);
    assert Lengths(mapped) == plan.lengths;
    VStackAddRows(copied, mapped);
    var sums := AddBlocks(copied, mapped);
    SplitVStack(sums);
    assert ForwardOutputs(plan, outputs, head, width, Some(copyPrev)) == Ok(PerStreamline(sums));
    forall i | 0 <= i < |outputs|
      ensures sums[i] == AddRows(copied[i], MapRows(head, outputs[i][..plan.lengths[i]]))
    {
      assert blocks[i] == outputs[i][..plan.lengths[i]];
    }
  }

  /** In tracking, a copy of one row per line is added row by row to the selected outputs. */
  lemma TrackingAddsCopiedRows(plan: Plan, outputs: seq<Matrix>, head: Row -> Row, width: nat, copied: Matrix)
    requires OutputShape(plan, outputs)
    requires plan.context == Tracking
    requires SelectLastOutputs(plan, outputs).Ok?
    requires forall row: Row :: |head(row)| == width
    requires HasWidth(copied, width) && |copied| == |outputs|
    ensures var selected := SelectLastOutputs(plan, outputs).value;
      ForwardOutputs(plan, outputs, head, width, Some(copied)) ==
      Ok(LastPoints(AddRows(copied, MapRows(head, selected))))
  {
  }

  /** `CorrectedTrackingRows` for any tracking plan whose selection picks each line's last valid output. */
  lemma CorrectedPlanRows(plan: Plan, outputs: seq<Matrix>, head: Row -> Row, width: nat, copyPrev: Matrix)
    requires OutputShape(plan, outputs)
    requires plan.context == Tracking
    requires forall i :: 0 <= i < |plan.lengths| ==> plan.lengths[i] > 0
    requires SelectLastOutputs(plan, outputs).Ok?
    requires forall i :: 0 <= i < |outputs| ==> plan.lengths[i] <= plan.batchMaxLen
    requires forall i :: 0 <= i < |outputs| ==>
      SelectLastOutputs(plan, outputs).value[i] == outputs[i][plan.lengths[i] - 1]
    requires forall row: Row :: |head(row)| == width
    requires HasWidth(copyPrev, width) && |copyPrev| == Sum(plan.lengths)
    ensures var t := ForwardOutputsCorrected(plan, outputs, head, width, Some(copyPrev));
      var lastCopied := LastCopiedRows(copyPrev, plan.lengths);
      t.Ok? && t.value.LastPoints? && |t.value.rows| == |outputs| &&
      forall i :: 0 <= i < |outputs| ==>
        t.value.rows[i] == AddRow(lastCopied[i], head(outputs[i][plan.lengths[i] - 1]))
  {
    var lastCopied := LastCopiedRows(copyPrev, plan.lengths);
    LastCopiedRowsWidth(copyPrev, plan.lengths, width);
    assert ForwardOutputsCorrected(plan, outputs, head, width, Some(copyPrev)) ==
           ForwardOutputs(plan, outputs, head, width, Some(lastCopied));
    TrackingAddsCopiedRows(plan, outputs, head, width, lastCopied);
  }

  /**
    With the correction, tracking adds to each line's last output the copied
    direction at that line's last valid position.
  */
  lemma CorrectedTrackingRows(inputLengths: seq<nat>, streamlineLengths: seq<nat>, maxLen: int,
                              outputs: seq<Matrix>, head: Row -> Row, width: nat, copyPrev: Matrix)
    requires CheckForward(Some(Tracking), inputLengths, streamlineLengths, maxLen).Ok?
    requires forall i :: 0 <= i < |inputLengths| ==> inputLengths[i] > 0
    requires OutputShape(CheckForward(Some(Tracking), inputLengths, streamlineLengths, maxLen).value, outputs)
    requires forall row: Row :: |head(row)| == width
    requires HasWidth(copyPrev, width) && |copyPrev| == Sum(inputLengths)
    ensures var t := ForwardOutputsCorrected(CheckForward(Some(Tracking), inputLengths, streamlineLengths, maxLen).value,
                                             outputs, head, width, Some(copyPrev));
      var lastCopied := LastCopiedRows(copyPrev, inputLengths);
      t.Ok? && t.value.LastPoints? && |t.value.rows| == |outputs| &&
      forall i :: 0 <= i < |outputs| ==>
        t.value.rows[i] == AddRow(lastCopied[i], head(outputs[i][inputLengths[i] - 1]))
  {
    var planT := CheckForward(Some(Tracking), inputLengths, streamlineLengths, maxLen).value;
    TrackingPlanSelectsLastRows(inputLengths, streamlineLengths, maxLen, outputs);
    CorrectedPlanRows(planT, outputs, head, width, copyPrev);
  }

  /** The facts about a tracking plan built by `forward` that the corrected addition relies on. */
  lemma TrackingPlanSelectsLastRows(inputLengths: seq<nat>, streamlineLengths: seq<nat>, maxLen: int, outputs: seq<Matrix>)
    requires CheckForward(Some(Tracking), inputLengths, streamlineLengths, maxLen).Ok?
    requires forall i :: 0 <= i < |inputLengths| ==> inputLengths[i] > 0
    requires OutputShape(CheckForward(Some(Tracking), inputLengths, streamlineLengths, maxLen).value, outputs)
    ensures var plan := CheckForward(Some(Tracking), inputLengths, streamlineLengths, maxLen).value;
      && plan.lengths == inputLengths && plan.context == Tracking
      && SelectLastOutputs(plan, outputs).Ok?
      && (forall i :: 0 <= i < |outputs| ==> plan.lengths[i] <= plan.batchMaxLen)
      && (forall i :: 0 <= i < |outputs| ==>
            SelectLastOutputs(plan, outputs).value[i] == outputs[i][plan.lengths[i] - 1])
  {
    var planT := CheckForward(Some(Tracking), inputLengths, streamlineLengths, maxLen).value;
    TrackingSelectsLastValidPoint(Tracking, inputLengths, streamlineLengths, maxLen, outputs);
    var expected := seq(|outputs|, i requires 0 <= i < |outputs| && i < |inputLengths| => outputs[i][inputLengths[i] - 1]);
    assert SelectLastOutputs(planT, outputs) == Ok(expected);
    forall i | 0 <= i < |outputs|
      ensures SelectLastOutputs(planT, outputs).value[i] == outputs[i][planT.lengths[i] - 1]
    {
      assert expected[i] == outputs[i][inputLengths[i] - 1];
    }
  }

  /**
    With the correction, tracking returns for each line exactly the last row
    of what the other contexts return for that line, copied direction
    included. The selection requirement holds for every plan `forward`
    builds (`TrackingSelectsLastValidPoint`).
  */
  lemma CorrectedTrackingMatchesLastRow(plan: Plan, outputs: seq<Matrix>, head: Row -> Row, width: nat, copyPrev: Matrix)
    requires OutputShape(plan, outputs) && |outputs| > 0
    requires plan.context == Tracking
    requires forall i :: 0 <= i < |plan.lengths| ==> plan.lengths[i] > 0
    requires SelectLastOutputs(plan, outputs).Ok?
    requires forall i :: 0 <= i < |outputs| ==> plan.lengths[i] <= plan.batchMaxLen
    requires forall i :: 0 <= i < |outputs| ==>
      SelectLastOutputs(plan, outputs).value[i] == outputs[i][plan.lengths[i] - 1]
    requires forall row: Row :: |head(row)| == width
    requires HasWidth(copyPrev, width) && |copyPrev| == Sum(plan.lengths)
    ensures var t := ForwardOutputsCorrected(plan, outputs, head, width, Some(copyPrev));
      var v := ForwardOutputsCorrected(plan.(context := Training), outputs, head, width, Some(copyPrev));
      t.Ok? && v.Ok? && t.value.LastPoints? && v.value.PerStreamline? &&
      |t.value.rows| == |outputs| == |v.value.blocks| &&
      forall i :: 0 <= i < |outputs| ==>
        |v.value.blocks[i]| == plan.lengths[i] && t.value.rows[i] == v.value.blocks[i][plan.lengths[i] - 1]
  {
    var planV := plan.(context := Training);
    CorrectedPlanRows(plan, outputs, head, width, copyPrev);
    NonTrackingCopyPrevRows(planV, outputs, head, width, copyPrev);
    var t := ForwardOutputsCorrected(plan, outputs, head, width, Some(copyPrev)).value;
    var v := ForwardOutputs(planV, outputs, head, width, Some(copyPrev)).value;
    var copied := Split(copyPrev, plan.lengths).value;
    var lastCopied := LastCopiedRows(copyPrev, plan.lengths);
    forall i | 0 <= i < |outputs|
      ensures |v.blocks[i]| == plan.lengths[i] && t.rows[i] == v.blocks[i][plan.lengths[i] - 1]
    {
      LastRowOfSum(copied[i], outputs[i], plan.lengths[i], head);
    }
  }

  /** The last row of a line's sum is the sum of the line's last rows. */
  lemma LastRowOfSum(copied: Matrix, line: Matrix, n: nat, head: Row -> Row)
    requires 0 < n <= |line| && |copied| == n
    ensures AddRows(copied, MapRows(head, line[..n]))[n - 1] == AddRow(copied[n - 1], head(line[n - 1]))
  {
  }

  // ------------------------------------------------------------ constructor

  /** The target token: the direction plus an end label, or a class of a named sphere. */
  datatype TokenType = AsLabel | SphereTokens(sphereName: string, nbVertices: nat)

  /** The two concrete transformers differ in how `d_model` relates to the embedding sizes. */
  datatype Variant =
    | Original(dModel: int)
    | SourceAndTarget(embeddingSizeX: int, embeddingSizeT: int)

  datatype TransformerArgs = TransformerArgs(
    nbFeatures: nat, nbNeighbors: nat,
    embeddingKeyX: string, tokenType: TokenType, embeddingKeyT: string,
    positionalEncodingKey: string,
    ffnnHiddenSize: Option<int>, nheads: int, dropoutRate: real,
    dgKey: string, dgArgs: DirectionGetters.HeadArgs)

  /** The sizes the constructor derives, and the direction-getter head it builds. */
  datatype TransformerSizes = TransformerSizes(
    dModel: int, embeddingSizeX: int, embeddingSizeT: int,
    ffnnHiddenSize: int, inputSize: nat, targetFeatures: nat, headInputSize: int,
    head: DirectionGetters.Head)

  /** The `(d_model, embedding_size_x, embedding_size_t)` each variant passes to the shared constructor. */
  function VariantSizes(v: Variant): (sizes: (int, int, int))
    ensures v.Original? ==> sizes.0 == sizes.1 == sizes.2 == v.dModel
    ensures v.SourceAndTarget? ==> sizes.0 == sizes.1 + sizes.2 && sizes.1 == v.embeddingSizeX && sizes.2 == v.embeddingSizeT
  {
    match v
    case Original(d) => (d, d, d)
    case SourceAndTarget(ex, et) => (ex + et, ex, et)
  }

  /**
    The checks of the shared constructor, in the order it makes them: an input
    embedding larger than 3, known embedding and positional-encoding keys, and
    `d_model` divisible by `nheads`.
  */
  predicate PassesChecks(variant: Variant, args: TransformerArgs,
                         embeddingKeys: set<string>, positionalKeys: set<string>)
  {
    var (d, ex, _) := VariantSizes(variant);
    ex > 3 && args.embeddingKeyX in embeddingKeys && args.embeddingKeyT in embeddingKeys &&
    args.positionalEncodingKey in positionalKeys && args.nheads != 0 && d % args.nheads == 0
  }

  /** The direction-getter arguments with the input size set to `d_model`. */
  function HeadArgsFor(args: TransformerArgs, d: nat): DirectionGetters.HeadArgs
  {
    args.dgArgs.(inputSize := d)
  }

  // The messages of the constructor's errors.
  const SmallEmbeddingMessage := "positional encoding needs an embedding size above 3"
  const UnknownEmbeddingXMessage := "Embedding choice for x data not understood"
  const UnknownEmbeddingTMessage := "Embedding choice for targets not understood"
  const UnknownPositionalMessage := "Positional encoding choice not understood"
  const IndivisibleHeadsMessage := "d_model must be divisible by nheads"
  const DropoutRangeMessage := "dropout probability has to be between 0 and 1"
  const NegativeDimensionMessage := "Trying to create tensor with negative dimension"

  /**
    `instantiate_direction_getter`: the head registered under `key`, built with
    `args`. An unknown key is a KeyError; the head's own construction errors
    pass through.
  */
  function BuildDirectionGetter(key: string, args: DirectionGetters.HeadArgs): (r: Result<DirectionGetters.Head>)
    ensures r.Ok? <==> key in DirectionGetters.Registry &&
                       DirectionGetters.Construct(DirectionGetters.Registry[key], args).Ok?
    ensures key !in DirectionGetters.Registry ==> r == Err(KeyError(key))
    ensures r.Ok? ==> (DirectionGetters.Key(r.value.family) == key &&
                       r.value.dropout == DirectionGetters.PrepareDropout(args.dropout).value)
    ensures r.Ok? ==> forall i :: 0 <= i < |r.value.networks| ==> r.value.networks[i].inputSize == args.inputSize
  {
    var family :- DirectionGetters.Lookup(key);
    DirectionGetters.Construct(family, args)
  }

  /**
    The shared constructor: the checks, the embedding dropout layer (torch's
    `Dropout` rejects a rate outside [0, 1]), the derived sizes and the
    direction-getter head, looked up by its key and built on `d_model`
    features. `embeddingKeys` and `positionalKeys` are the key sets of the
    embedding and positional-encoding registries.
  */
  function ConstructTransformer(variant: Variant, args: TransformerArgs,
                                embeddingKeys: set<string>, positionalKeys: set<string>): (r: Result<TransformerSizes>)
    ensures var d := VariantSizes(variant).0;
      r.Ok? <==> PassesChecks(variant, args, embeddingKeys, positionalKeys) &&
                 0.0 <= args.dropoutRate <= 1.0 && d >= 0 && BuildDirectionGetter(args.dgKey, HeadArgsFor(args, d)).Ok?
    ensures var (_, ex, _) := VariantSizes(variant); ex <= 3 ==> r.Err? && r.error.AssertionError?
    ensures var (_, ex, _) := VariantSizes(variant);
      (ex > 3 && args.embeddingKeyX in embeddingKeys && args.embeddingKeyT in embeddingKeys &&
       args.positionalEncodingKey in positionalKeys && args.nheads == 0) ==> r == Err(ZeroDivisionError)
    ensures (PassesChecks(variant, args, embeddingKeys, positionalKeys) &&
             (args.dropoutRate < 0.0 || args.dropoutRate > 1.0)) ==> r.Err? && r.error.ValueError?
    ensures (PassesChecks(variant, args, embeddingKeys, positionalKeys) && 0.0 <= args.dropoutRate <= 1.0 &&
             VariantSizes(variant).0 >= 0 && args.dgKey !in DirectionGetters.Registry) ==>
      r == Err(KeyError(args.dgKey))
    ensures r.Ok? ==> r.value.dModel == VariantSizes(variant).0 && r.value.headInputSize == r.value.dModel
    ensures r.Ok? ==> r.value.dModel % args.nheads == 0
    ensures r.Ok? ==> r.value.inputSize == args.nbFeatures * (args.nbNeighbors + 1)
    ensures r.Ok? && (args.ffnnHiddenSize.None? || args.ffnnHiddenSize == Some(0)) ==>
      2 * r.value.ffnnHiddenSize <= r.value.dModel < 2 * r.value.ffnnHiddenSize + 2
    ensures r.Ok? && args.ffnnHiddenSize.Some? && args.ffnnHiddenSize.value != 0 ==>
      r.value.ffnnHiddenSize == args.ffnnHiddenSize.value
    ensures r.Ok? ==> r.value.targetFeatures == if args.tokenType.AsLabel? then 4 else args.tokenType.nbVertices + 1
    ensures r.Ok? ==> (DirectionGetters.Key(r.value.head.family) == args.dgKey &&
                       r.value.head.dropout == DirectionGetters.PrepareDropout(args.dgArgs.dropout).value)
    ensures r.Ok? ==> forall i :: 0 <= i < |r.value.head.networks| ==>
      r.value.head.networks[i].inputSize == r.value.dModel
  {
    var (d, ex, et) := VariantSizes(variant);
    var ffnn := if args.ffnnHiddenSize.Some? && args.ffnnHiddenSize.value != 0 then args.ffnnHiddenSize.value else d / 2;
    if !(ex > 3) then Err(AssertionError(SmallEmbeddingMessage))
    else if args.embeddingKeyX !in embeddingKeys then Err(ValueError(UnknownEmbeddingXMessage))
    else if args.embeddingKeyT !in embeddingKeys then Err(ValueError(UnknownEmbeddingTMessage))
    else if args.positionalEncodingKey !in positionalKeys then Err(ValueError(UnknownPositionalMessage))
    else if args.nheads == 0 then Err(ZeroDivisionError)
    else if d % args.nheads != 0 then Err(AssertionError(IndivisibleHeadsMessage))
    else if args.dropoutRate < 0.0 || args.dropoutRate > 1.0 then
      Err(ValueError(DropoutRangeMessage))
    else if d < 0 then Err(RuntimeError(NegativeDimensionMessage))
    else
      var head :- BuildDirectionGetter(args.dgKey, HeadArgsFor(args, d));
      var targetFeatures := if args.tokenType.AsLabel? then 4 else args.tokenType.nbVertices + 1;
      Ok(TransformerSizes(d, ex, et, ffnn, args.nbFeatures * (args.nbNeighbors + 1), targetFeatures, d, head))
  }

  /** A transformer can never be built on the Fisher-von-Mises-mixture head. */
  lemma NoTransformerOnFisherMixture(variant: Variant, args: TransformerArgs,
                                     embeddingKeys: set<string>, positionalKeys: set<string>)
    requires args.dgKey == "fisher-von-mises-mixture"
    ensures ConstructTransformer(variant, args, embeddingKeys, positionalKeys).Err?
  {
    DirectionGetters.RegistryMatchesKeys();
    assert DirectionGetters.Registry[args.dgKey] == DirectionGetters.FisherVonMisesMixture;
  }
}
